=== FILE: README.md ===
# Sortable table, `uniq` and `sortStrings` in Dafny

A model of the decision logic of a small JavaScript course repository:

- the **sortable table** in its two stages — the events-chapter table
  (`06-events-practice/1-sortable-table-v2/index.js`), which sorts in memory, and the fetch-chapter table
  (`07-async-code-fetch-api-part-1/2-sortable-table-v3/index.js`), which by default sorts on the server and loads further pages
  of rows when the user scrolls near the end of the table;
- `uniq`, order-preserving de-duplication by a left fold;
- `sortStrings`, a sorted copy of an array of strings under a
  Russian/English collation.

Every operation is a pure function. A table is an immutable record (sort
state, mode, data, the rows shown, the header order markers, the listener
registry, the scroll cursor `visibleRows` and the `isLoading` flag), and
each event handler is a step from one record to the next. A step that
fetches returns the request it sent (URL path and query parameters), and
the page the server answers with is an argument of the step. Where the
JavaScript would throw (reading a property of `undefined` or `null`) the
step returns `TypeError`.

Modules:

| module | file | content |
|---|---|---|
| `Wrappers` | wrappers.dfy | `Option`, standing in for `undefined` |
| `Sorting` | sorting.dfy | consistent three-way comparators, sorting a copy (permutation + sortedness) |
| `TableCore` | table_core.dfy | columns, rows, sort state, header click, initial sort state, `sortData`, header markers |
| `Listeners` | listeners.dfy | header-click listener registry: `addEventListeners`, `destroy` |
| `Request` | request.dfy | `getData` query parameters, decimal numbers in the query |
| `TableV2` | table_v2.dfy | the events-chapter table |
| `TableV3` | table_v3.dfy | the fetch-chapter table, with infinite scrolling |
| `Uniq` | uniq.dfy | `uniq` |
| `SortStrings` | sort_strings.dfy | `sortStrings` |

Comparators. `localeCompare` and the `Intl` collations are not encoded;
they are parameters of type `(string, string) -> int` assumed to be
*consistent comparators* (`Sorting.Comparator`): `cmp(a, b) < 0` exactly when
`cmp(b, a) > 0`, and `cmp(a, b) <= 0` is transitive. `Array.prototype.sort`
leaves its algorithm and stability unspecified, so the model promises of a
sort only that the result is a permutation of the input and is sorted;
insertion sort is the witness. The numeric comparator
`direction * (a[id] - b[id])` is concrete over integers.

Behaviour as written, which the model keeps:

- A click on another column always sorts it descending; a click on the sorted
  column toggles the order.
- Columns of a `sortType` other than `number` and `string` sort numerically
  (the comparator's `default` branch).
- The fetch-chapter table attaches its document scroll listener in both modes,
  and the scroll handler never looks at `isSortLocally`: scrolling a locally
  sorted table appends fetched pages too.
- An empty page does not stop paging: each further scroll signal moves
  `visibleRows` on by 30 and sends another request (`TableV3.EmptyPageKeepsPaging`).
- Nothing fences a pending scroll fetch against a newer sort. If a header
  click re-sorts on the server while a page is loading, the stale page is
  appended to the new first page, and the header is marked again with the sort
  state from before the click (`TableV3.StalePageAppendedAfterSort`).
- The fetch-chapter constructor calls the `async` `render` without awaiting
  it, so `undefined` rows or an initial `sorted.id` that no column has do not
  make `new` throw: the table comes back unmounted, or mounted but unsorted
  (`TableV3.Construct`). With `undefined` rows no scroll listener is
  attached, so scrolls do nothing. With an unknown initial id `render` stops
  before it assigns `scrollTrigger`, so every scroll of that table throws,
  even after a header press has sorted it
  (`TableV3.UnknownInitialIdNeverScrolls`). The events-chapter constructor
  throws in both cases (`TableV2.Construct`).
- `destroy` keeps the `listeners` array; it only unregisters each pair, so a
  second `destroy` is harmless.
- `sortStrings` compares with upper case first for `'asc'` but with the
  default collation, negated, for any other `param`. The two directions are
  therefore not mirror images: two strings the collations order oppositely,
  such as a letter in either case, come out in the same order both ways
  (`SortStrings.OppositeCollationsAgree`).

## Model

| member | source | states |
|---|---|---|
| Sorting.SortBy | 07-async-code-fetch-api-part-1/2-sortable-table-v3/index.js:190-199 | sorting a copy gives a permutation of the input that is sorted under any consistent comparator |
| Sorting.NegateIsComparator | 07-async-code-fetch-api-part-1/2-sortable-table-v3/index.js:184-188 | scaling a consistent comparator by the `desc` direction -1 gives a consistent comparator |
| Sorting.NegatedSortedIsReverseSorted | 07-async-code-fetch-api-part-1/2-sortable-table-v3/index.js:184-188 | sorted under the negated comparator iff non-increasing under the original |
| TableCore.ColumnOf | 07-async-code-fetch-api-part-1/2-sortable-table-v3/index.js:182 | `find` by id: absent iff no column has the id, otherwise the first column with it |
| TableCore.InitialSortState | 07-async-code-fetch-api-part-1/2-sortable-table-v3/index.js:19-23 | throws iff no column is sortable; id is the `sorted` option's id if given, else the first sortable column's; order is the option's, else `asc` |
| TableCore.NextSortState | 07-async-code-fetch-api-part-1/2-sortable-table-v3/index.js:46-52 | a click makes the clicked column the sort id; the same column flips the order, another column gets `desc` |
| TableCore.ClickSortedTwiceRestores | 07-async-code-fetch-api-part-1/2-sortable-table-v3/index.js:47-48 | two clicks on the sorted column restore the sort state |
| TableCore.ClickOtherForgetsState | 07-async-code-fetch-api-part-1/2-sortable-table-v3/index.js:49-52 | a click on another column gives the same state whatever the previous column and order |
| TableCore.ClickAll | 07-async-code-fetch-api-part-1/2-sortable-table-v3/index.js:46-54 | after a run of clicks the sort id is the last clicked column |
| TableCore.RowComparatorIsComparator | 07-async-code-fetch-api-part-1/2-sortable-table-v3/index.js:190-199 | the `sortData` comparator is consistent for every column type and direction |
| TableCore.SortedIsOrderedBy | 07-async-code-fetch-api-part-1/2-sortable-table-v3/index.js:190-199 | sorted under the comparator means numbers (or collated strings) non-decreasing for `asc`, non-increasing for `desc` |
| TableCore.SortData | 07-async-code-fetch-api-part-1/2-sortable-table-v3/index.js:180-200 | throws iff no column has the id; otherwise a permutation of the data, ordered as the found column's sort type and the order demand |
| TableCore.NumericDescendingReversesAscending | 07-async-code-fetch-api-part-1/2-sortable-table-v3/index.js:184-199 | for a numeric or default-branch column, the descending result's numbers are the ascending result's in reverse |
| TableCore.MarkActive | 07-async-code-fetch-api-part-1/2-sortable-table-v3/index.js:170-176 | every header cell keeps an entry, every marker is cleared and only the sorted column's set to the order; throws iff no header has the id |
| TableCore.MarkActiveReadsBack | 07-async-code-fetch-api-part-1/2-sortable-table-v3/index.js:171-176 | reading the marked header gives back exactly the sort state written |
| TableCore.ClearedMarkers | 07-async-code-fetch-api-part-1/2-sortable-table-v3/index.js:173-175 | clearing every marker leaves an entry per header cell, none set, so the header shows no sort state |
| TableCore.UpdateView | 07-async-code-fetch-api-part-1/2-sortable-table-v3/index.js:170-178 | throws iff no header has the id; else the body shows exactly the given rows, the sorted column's marker carries the order and every other cell's marker is empty |
| TableCore.SortIntoView | 07-async-code-fetch-api-part-1/2-sortable-table-v3/index.js:165-168 | local sort: throws iff the id is no column or the element is gone; else the body shows a permutation of the data ordered by that column, the sorted column is marked and every other marker is empty |
| Listeners.SortableCellListeners | 06-events-practice/1-sortable-table-v2/index.js:58-62 | one listener per sortable header cell, in header order, each capturing its cell's column id |
| Listeners.AddClickListeners | 06-events-practice/1-sortable-table-v2/index.js:41-61 | every sortable header gets an attached and recorded handler; the registry stays well formed |
| Listeners.RemoveClickListeners | 06-events-practice/1-sortable-table-v2/index.js:188-190 | every recorded pair is unregistered; the record itself is kept |
| Listeners.HandlerOn | 06-events-practice/1-sortable-table-v2/index.js:51-52 | a press on a cell runs an attached handler there, if one is attached |
| Listeners.MountedHandlers | 06-events-practice/1-sortable-table-v2/index.js:51-61 | after mounting, a press on a sortable header runs that column's handler and a press elsewhere runs none |
| Listeners.HandlerOfItsCell | 06-events-practice/1-sortable-table-v2/index.js:51-61 | a handler that runs on a cell was attached to that sortable cell and captured that cell's column id |
| Listeners.RemovedHandlersNeverRun | 06-events-practice/1-sortable-table-v2/index.js:184-191 | after `destroy` no press runs a handler, and removing again changes nothing |
| TableV2.Sort | 06-events-practice/1-sortable-table-v2/index.js:116-141 | server mode changes nothing; local mode throws iff the sort id is no column or the element is gone, else shows the data sorted, with the sorted column marked and every other marker cleared; only the element changes |
| TableV2.SortSelectRow | 06-events-practice/1-sortable-table-v2/index.js:42-49 | the click transition followed by `sort`; data and listeners unchanged |
| TableV2.PointerDown | 06-events-practice/1-sortable-table-v2/index.js:41-61 | on a mounted header a press on a sortable cell sorts by that cell's column and a press elsewhere changes nothing; only the sort state and the element change |
| TableV2.PointerDownKeepsValid | 06-events-practice/1-sortable-table-v2/index.js:41-61 | on a mounted table a press never throws and keeps the table valid |
| TableV2.PressesEndOnSortableColumn | 06-events-practice/1-sortable-table-v2/index.js:41-61 | any run of presses on a live table never throws, keeps it valid, and leaves it sorted by its initial column or by a sortable column that was pressed |
| TableV2.Construct | 06-events-practice/1-sortable-table-v2/index.js:6-22 | throws exactly when no column is sortable, the data is `undefined`, or local mode is asked to sort by an id no column has; local mode by default; initial sort state; handlers on exactly the sortable headers; local mode shows the data sorted, server mode shows it as given |
| TableV2.Destroy | 06-events-practice/1-sortable-table-v2/index.js:184-191 | the element is nulled and no header handler remains; nothing else changes |
| TableV2.DestroyIsFinal | 06-events-practice/1-sortable-table-v2/index.js:178-191 | after `destroy` presses do nothing and a second `destroy` changes nothing |
| TableV2.ServerModeKeepsView | 06-events-practice/1-sortable-table-v2/index.js:124-125 | in server mode a click only moves the sort state |
| Request.DecimalString | 07-async-code-fetch-api-part-1/2-sortable-table-v3/index.js:141-142 | numbers enter the query as non-empty digit strings without leading zeros |
| Request.DecimalRoundTrip | 07-async-code-fetch-api-part-1/2-sortable-table-v3/index.js:141-142 | the decimal text of a number reads back as that number |
| Request.Lookup | 07-async-code-fetch-api-part-1/2-sortable-table-v3/index.js:135-142 | how the server reads the query back: the first value given for a parameter, absent iff no parameter has the name |
| Request.GetData | 07-async-code-fetch-api-part-1/2-sortable-table-v3/index.js:133-142 | `_sort` present iff the id is non-empty, `_order` always, `_start` the offset and `_end` the offset plus 30 |
| Request.RequestedWindow | 07-async-code-fetch-api-part-1/2-sortable-table-v3/index.js:141-142 | the request reads back as the window from the offset to the offset plus one page |
| TableV3.UpdateData | 07-async-code-fetch-api-part-1/2-sortable-table-v3/index.js:170-178 | throws iff the element is gone or no header has the id; else the body shows the rows, the sorted column's marker carries the order and every other marker is empty |
| TableV3.Sort | 07-async-code-fetch-api-part-1/2-sortable-table-v3/index.js:122-131 | resets `visibleRows` to 0; local mode sends no request and shows the data sorted; server mode requests the page at offset 0 and shows that page in place of the old rows; either way only the sorted column is marked |
| TableV3.SortSelectRow | 07-async-code-fetch-api-part-1/2-sortable-table-v3/index.js:46-54 | the click transition (same column flips, another gets `desc`) followed by `sort`: throws iff the element is gone or the id is no column; local mode sends nothing and shows the data sorted by the new state; server mode requests offset 0 under the new state and shows that page with only the new column marked |
| TableV3.PointerDown | 07-async-code-fetch-api-part-1/2-sortable-table-v3/index.js:45-67 | on a mounted header a press on a sortable cell sorts by that cell's column and a press elsewhere changes nothing and sends nothing |
| TableV3.PointerDownKeepsValid | 07-async-code-fetch-api-part-1/2-sortable-table-v3/index.js:45-67 | on a live, valid table a press never throws and keeps the table valid and mounted |
| TableV3.ScrollBegin | 07-async-code-fetch-api-part-1/2-sortable-table-v3/index.js:146-153 | throws iff `render` never assigned the scroll trigger; otherwise nothing happens unless the trigger is near and nothing is loading, and then the flag is taken, `visibleRows` moves on by 30 and the next page is requested |
| TableV3.ScrollEnd | 07-async-code-fetch-api-part-1/2-sortable-table-v3/index.js:153-157 | the fetched page is appended to the shown rows, which the body shows, and the flag is released |
| TableV3.Scroll | 07-async-code-fetch-api-part-1/2-sortable-table-v3/index.js:146-158 | throws whenever the scroll trigger is unassigned; when near and not loading: one request, `visibleRows` plus 30, old rows kept as a prefix with the page appended, flag released; otherwise nothing changes |
| TableV3.SecondSignalWhileLoadingIsDropped | 07-async-code-fetch-api-part-1/2-sortable-table-v3/index.js:148-149 | two scroll signals before the first answer send exactly one request |
| TableV3.ScrollRequestsNextWindow | 07-async-code-fetch-api-part-1/2-sortable-table-v3/index.js:150-153 | the scroll request's window starts at the new `visibleRows` and spans one page |
| TableV3.EmptyPageKeepsPaging | 07-async-code-fetch-api-part-1/2-sortable-table-v3/index.js:152-154 | an empty page keeps the rows but the cursor still advances and a request is still sent |
| TableV3.StalePageAppendedAfterSort | 07-async-code-fetch-api-part-1/2-sortable-table-v3/index.js:150-155 | a scroll page fetched before a server re-sort is appended to the new rows under the old header marker |
| TableV3.Construct | 07-async-code-fetch-api-part-1/2-sortable-table-v3/index.js:10-26 | throws exactly when no column is sortable; the unawaited `render` otherwise leaves a table: with `undefined` data nothing is mounted or attached; else the scroll listener and the sortable headers' handlers are attached, server mode requests offset 0 and stores the answer, and with a known initial id the answer (or, locally, the sorted data) is shown under its marker, while an unknown id leaves the data as given under cleared (server) or untouched (local) markers; the scroll trigger is assigned exactly when `render` completes |
| TableV3.UnknownInitialIdNeverScrolls | 07-async-code-fetch-api-part-1/2-sortable-table-v3/index.js:109-120 | with an unknown initial sort id, `render` stops before assigning the scroll trigger, so every scroll throws, before and after a header press, while presses still work |
| TableV3.Destroy | 07-async-code-fetch-api-part-1/2-sortable-table-v3/index.js:218-226 | the element is nulled, header handlers and the scroll listener removed; nothing else changes |
| TableV3.DestroyIsFinal | 07-async-code-fetch-api-part-1/2-sortable-table-v3/index.js:212-226 | after `destroy` neither presses nor scrolling change anything or send requests; a second `destroy` changes nothing |
| Uniq.Uniq | 03-objects-arrays-intro-to-testing/4-uniq/index.js:6-15 | no argument gives []; no duplicates; exactly the input's values; in order of first occurrence; no longer than the input, as long iff the input has no duplicates |
| Uniq.UniqContains | 03-objects-arrays-intro-to-testing/4-uniq/index.js:7-14 | a value is in the output iff it is in the input |
| Uniq.UniqSnoc | 03-objects-arrays-intro-to-testing/4-uniq/index.js:8-13 | one more input value is appended iff it has not occurred yet |
| Uniq.UniqNoDuplicates | 03-objects-arrays-intro-to-testing/4-uniq/index.js:9-11 | the output has no duplicates |
| Uniq.UniqFirstOccurrenceOrder | 03-objects-arrays-intro-to-testing/4-uniq/index.js:7-14 | output values come in the order of their first occurrence in the input |
| Uniq.UniqLength | 03-objects-arrays-intro-to-testing/4-uniq/index.js:7-14 | the output is no longer than the input, and as long exactly when the input has no duplicates |
| Uniq.UniqOfDistinct | 03-objects-arrays-intro-to-testing/4-uniq/index.js:7-14 | an input without duplicates comes back unchanged |
| Uniq.UniqIdempotent | 03-objects-arrays-intro-to-testing/4-uniq/index.js:7-14 | `uniq(uniq(a))` equals `uniq(a)` |
| SortStrings.SortStrings | 02-javascript-data-types/1-sort-strings/index.js:8-14 | a permutation of the input; non-decreasing under the upper-case-first collation for `'asc'` (the default), non-increasing under the default collation otherwise |
| SortStrings.OppositeCollationsAgree | 02-javascript-data-types/1-sort-strings/index.js:10-13 | strings the two collations order oppositely come out in the same order for `'asc'` and `'desc'` |

## Left out

- Markup and the DOM: templates, `innerHTML`, `getSubElements`, cell
  templates. The header is an id-to-marker map and the body a row sequence;
  elements are abstract references (a header cell is its position).
- Network: `fetch`, `.json()` and resolving the URL against the backend
  address; the request is the table's `url` with its query parameters, and
  the answer is a step argument. A failing fetch is not modelled, so neither
  is the scroll handler leaving `isLoading` set when its fetch throws.
- Collation: `localeCompare` and `Intl` are comparator parameters; no
  Cyrillic or Latin ordering is encoded.
- Values of the wrong kind: `TableCore.SortData` requires the rows to hold a
  number (for a numeric or default-branch column) or a string (for a
  `string` column) in the column it sorts by; `TableCore.SortIntoView` and
  the table steps, through `DataTyped` and `Valid`, require this of every
  column. Subtraction on non-numbers gives `NaN` and an inconsistent
  comparator; `localeCompare` on a non-string throws.
- Orders other than `asc`/`desc`, and `sorted` options whose properties are
  present but `undefined`.
- Pixel geometry: `getClientRects()[0].top < 300` is the boolean `near`. A
  scroll before the first sort has finished, when `scrollTrigger` and
  `sortedData` are still unset, is not modelled.
- Interleaving: every step runs to completion, except that the scroll handler
  is also split at its `await` (`TableV3.ScrollBegin` / `TableV3.ScrollEnd`).
  The server sort's request and answer form one step.
- Effects before a throw: a step that throws returns `TypeError` and no state,
  so header markers cleared before `querySelector` yields `null`, or
  `sortedData` stored before `updateData` throws, are not tracked. The one
  exception is the fetch-chapter constructor, which does not await `render`
  and so survives a throw inside it; `TableV3.Construct` returns the table as
  far as `render` built it.
- Duplicate column ids: markers are keyed by id, so columns sharing an id
  share a marker.
- `null` as the `data` option, which throws on `data.data`.
- `Array.prototype.sort`'s algorithm and stability; only permutation and
  sortedness are stated.
- `uniq`'s `includes` uses SameValueZero (`NaN` equals `NaN`); the model uses
  the element type's equality.

=== FILE: listeners.dfy ===
/** The header-click listener registry of both table variants: one
    `pointerdown` handler per sortable header cell, recorded as an
    `(element, handler)` pair so that `destroy` can unregister it.

    Elements are abstract references: a header cell is its position in the
    header. A handler is identified by the column id it captured. */
module Listeners {
  import opened Wrappers
  import opened TableCore

  datatype Listener = Listener(cell: nat, columnId: string)

  /** The component's `listeners` array, and the listeners the document
      currently has attached to header cells. */
  datatype Registry = Registry(recorded: seq<Listener>, attached: set<Listener>)

  /** Every recorded listener sits on a sortable cell and its handler
      captured that cell's column id; every attached one is recorded. */
  ghost predicate WellFormed(columns: seq<Column>, reg: Registry)
  {
    && (forall k :: 0 <= k < |reg.recorded| ==>
          reg.recorded[k].cell < |columns|
          && columns[reg.recorded[k].cell].sortable
          && columns[reg.recorded[k].cell].id == reg.recorded[k].columnId)
    && (forall l :: l in reg.attached ==> l in reg.recorded)
  }

  /** `querySelectorAll('[data-id][data-sortable="true"]')` from cell `from`
      on, each passed to `initClickListener`: one listener per sortable cell,
      in header order. */
  function SortableCellListeners(columns: seq<Column>, from: nat): (r: seq<Listener>)
    ensures forall k :: 0 <= k < |r| ==>
      from <= r[k].cell < |columns| && columns[r[k].cell].sortable
      && r[k].columnId == columns[r[k].cell].id
    ensures forall c :: from <= c < |columns| && columns[c].sortable ==>
      Listener(c, columns[c].id) in r
    ensures forall i, j :: 0 <= i < j < |r| ==> r[i].cell < r[j].cell
    decreases |columns| - from
  {
    if from >= |columns| then []
    else
      var rest := SortableCellListeners(columns, from + 1);
      if columns[from].sortable then [Listener(from, columns[from].id)] + rest else rest
  }

  /** `addEventListeners`: attaches and records one listener per sortable
      header cell. */
  function AddClickListeners(columns: seq<Column>, reg: Registry): (r: Registry)
    ensures WellFormed(columns, reg) ==> WellFormed(columns, r)
    ensures reg.recorded <= r.recorded
    ensures forall c :: 0 <= c < |columns| && columns[c].sortable ==>
      Listener(c, columns[c].id) in r.attached
  {
    var added := SortableCellListeners(columns, 0);
    Registry(reg.recorded + added, reg.attached + set l | l in added)
  }

  /** The loop of `destroy` over `this.listeners`: every recorded pair is
      removed from its element; the array itself is kept. */
  function RemoveClickListeners(reg: Registry): (r: Registry)
    ensures r.recorded == reg.recorded
    ensures forall l :: l in r.attached ==> l in reg.attached && l !in reg.recorded
  {
    Registry(reg.recorded, reg.attached - set l | l in reg.recorded)
  }

  /** The column id captured by the handler a `pointerdown` on header cell
      `cell` runs, if an attached handler is there. */
  function HandlerOn(reg: Registry, cell: nat): (r: Option<string>)
    ensures r.Some? ==> Listener(cell, r.value) in reg.attached
    ensures r.None? ==> forall id :: Listener(cell, id) !in reg.attached || Listener(cell, id) !in reg.recorded
  {
    FirstAttached(reg.recorded, reg.attached, cell)
  }

  function FirstAttached(recorded: seq<Listener>, attached: set<Listener>, cell: nat): (r: Option<string>)
    ensures r.Some? ==> Listener(cell, r.value) in attached
    ensures r.None? ==> forall id :: Listener(cell, id) in recorded ==> Listener(cell, id) !in attached
    decreases |recorded|
  {
    if |recorded| == 0 then None
    else if recorded[0].cell == cell && recorded[0] in attached then Some(recorded[0].columnId)
    else
      var r := FirstAttached(recorded[1..], attached, cell);
      assert recorded == [recorded[0]] + recorded[1..];
      r
  }

  /** Exactly the sortable header cells run a handler, each for its own
      column: the registry as `addEventListeners` leaves it. */
  ghost predicate Mounted(columns: seq<Column>, reg: Registry)
  {
    forall c: nat :: HandlerOn(reg, c) == (if c < |columns| && columns[c].sortable
                                           then Some(columns[c].id) else None)
  }

  /** In a well-formed registry, the handler a press on `cell` runs is the
      one `initClickListener` attached to that sortable cell, and it
      captured that cell's column id. */
  lemma HandlerOfItsCell(columns: seq<Column>, reg: Registry, cell: nat)
    requires WellFormed(columns, reg) && HandlerOn(reg, cell).Some?
    ensures cell < |columns| && columns[cell].sortable
    ensures HandlerOn(reg, cell) == Some(columns[cell].id)
  {
    var id := HandlerOn(reg, cell).value;
    assert Listener(cell, id) in reg.recorded;
    var k :| 0 <= k < |reg.recorded| && reg.recorded[k] == Listener(cell, id);
  }

  /** After mounting, a press on a sortable header runs a handler for that
      header's column, and a press anywhere else runs nothing. */
  lemma {:induction false} MountedHandlers(columns: seq<Column>, cell: nat)
    ensures var reg := AddClickListeners(columns, Registry([], {}));
      HandlerOn(reg, cell) == (if cell < |columns| && columns[cell].sortable
                               then Some(columns[cell].id) else None)
  {
    var reg := AddClickListeners(columns, Registry([], {}));
    assert WellFormed(columns, reg);
    if cell < |columns| && columns[cell].sortable {
      var h := HandlerOn(reg, cell);
      assert Listener(cell, columns[cell].id) in reg.attached;
      assert Listener(cell, columns[cell].id) in reg.recorded;
      assert h.Some?;
      assert Listener(cell, h.value) in reg.recorded;
    } else {
      assert forall l :: l in reg.attached ==> l.cell != cell;
    }
  }

  /** After `destroy`, no press on any header runs a handler, and a second
      `destroy` changes nothing. */
  lemma RemovedHandlersNeverRun(reg: Registry, cell: nat)
    requires forall l :: l in reg.attached ==> l in reg.recorded
    ensures HandlerOn(RemoveClickListeners(reg), cell).None?
    ensures RemoveClickListeners(RemoveClickListeners(reg)) == RemoveClickListeners(reg)
  {
  }

  /** The registry right after `addEventListeners` on a fresh table. */
  function MountedRegistry(columns: seq<Column>): (r: Registry)
    ensures WellFormed(columns, r) && Mounted(columns, r)
  {
    var reg := AddClickListeners(columns, Registry([], {}));
    forall c: nat ensures HandlerOn(reg, c) ==
      (if c < |columns| && columns[c].sortable then Some(columns[c].id) else None)
    {
      MountedHandlers(columns, c);
    }
    reg
  }
}

=== FILE: request.dfy ===
/** The page request of the fetching table (`getData`): the query parameters
    `_sort`, `_order`, `_start` and `_end` appended to the table's URL.
    Resolving the URL against the backend address and the fetch itself are
    outside the model; numbers become their decimal text, as
    `URLSearchParams.append` does. */
module Request {
  import opened Wrappers
  import opened TableCore

  /** `MAX_ROWS_IN_REQUEST`: rows per page. */
  const PageSize: nat := 30

  /** A GET request: the table's `url` and its query parameters in order. */
  datatype Request = Request(path: string, params: seq<(string, string)>)

  function OrderName(order: Order): string
  {
    if order == Asc then "asc" else "desc"
  }

  function DigitChar(d: nat): char
    requires d < 10
  {
    ('0' as int + d) as char
  }

  predicate IsDigit(c: char)
  {
    '0' <= c <= '9'
  }

  /** The decimal text of `n`, without leading zeros. */
  function DecimalString(n: nat): (r: string)
    ensures |r| > 0 && forall k :: 0 <= k < |r| ==> IsDigit(r[k])
    ensures |r| > 1 ==> r[0] != '0'
  {
    if n < 10 then [DigitChar(n)] else DecimalString(n / 10) + [DigitChar(n % 10)]
  }

  /** The value of a string of decimal digits. */
  function DigitsValue(s: string): nat
    requires forall k :: 0 <= k < |s| ==> IsDigit(s[k])
    decreases |s|
  {
    if |s| == 0 then 0
    else
      assert IsDigit(s[|s| - 1]);
      DigitsValue(s[..|s| - 1]) * 10 + (s[|s| - 1] as int - '0' as int) as nat
  }

  /** Reading a non-negative integer parameter back, as a server would. */
  function ParseDecimal(s: string): Option<nat>
  {
    if |s| > 0 && forall k :: 0 <= k < |s| ==> IsDigit(s[k]) then Some(DigitsValue(s)) else None
  }

  /** The decimal text reads back as the number it was written from. */
  lemma {:induction false} DecimalRoundTrip(n: nat)
    ensures ParseDecimal(DecimalString(n)) == Some(n)
    decreases n
  {
    var s := DecimalString(n);
    if n >= 10 {
      DecimalRoundTrip(n / 10);
      assert s[..|s| - 1] == DecimalString(n / 10);
      assert s[|s| - 1] == DigitChar(n % 10);
      assert DigitsValue(s) == DigitsValue(DecimalString(n / 10)) * 10 + n % 10;
    } else {
      assert DigitsValue(s) == DigitsValue(s[..0]) * 10 + n;
    }
  }

  /** How a server reads a query parameter back: the first value given for
      `key`, as `URLSearchParams.get` answers. */
  function Lookup(params: seq<(string, string)>, key: string): (r: Option<string>)
    ensures r.None? <==> forall k :: 0 <= k < |params| ==> params[k].0 != key
    ensures r.Some? ==> exists k :: 0 <= k < |params| && params[k] == (key, r.value)
                                   && forall j :: 0 <= j < k ==> params[j].0 != key
    decreases |params|
  {
    if |params| == 0 then None
    else if params[0].0 == key then Some(params[0].1)
    else
      var r := Lookup(params[1..], key);
      if r.Some? then
        var k :| 0 <= k < |params[1..]| && params[1..][k] == (key, r.value)
                 && forall j :: 0 <= j < k ==> params[1..][j].0 != key;
        assert params[k + 1] == (key, r.value);
        assert forall j :: 0 <= j < k + 1 ==> params[j].0 != key by {
          forall j | 0 <= j < k + 1 ensures params[j].0 != key {
            if j > 0 { assert params[j] == params[1..][j - 1]; }
          }
        }
        r
      else r
  }

  /** `getData(id, order, start)`: `_sort` only when `id` is non-empty
      (truthy), `_order` always (both orders are non-empty strings), and the
      half-open row window `[start, start + 30)`. */
  function GetData(url: string, id: string, order: Order, start: nat): (r: Request)
    ensures r.path == url
    ensures Lookup(r.params, "_sort") == (if |id| > 0 then Some(id) else None)
    ensures Lookup(r.params, "_order") == Some(OrderName(order))
    ensures Lookup(r.params, "_start") == Some(DecimalString(start))
    ensures Lookup(r.params, "_end") == Some(DecimalString(start + PageSize))
    ensures |r.params| == (if |id| > 0 then 4 else 3)
  {
    var tail := [("_order", OrderName(order)), ("_start", DecimalString(start)),
                 ("_end", DecimalString(start + PageSize))];
    assert Lookup(tail[2..], "_end") == Some(DecimalString(start + PageSize));
    assert Lookup(tail[1..], "_start") == Some(DecimalString(start));
    assert Lookup(tail[1..], "_end") == Some(DecimalString(start + PageSize));
    if |id| > 0 then
      var params := [("_sort", id)] + tail;
      assert params[1..] == tail;
      Request(url, params)
    else
      Request(url, tail)
  }

  /** A server reading the request back finds a window of exactly one page
      starting at `start`. */
  lemma RequestedWindow(url: string, id: string, order: Order, start: nat)
    ensures var params := GetData(url, id, order, start).params;
      && Lookup(params, "_start").Some? && Lookup(params, "_end").Some?
      && ParseDecimal(Lookup(params, "_start").value) == Some(start)
      && ParseDecimal(Lookup(params, "_end").value) == Some(start + PageSize)
  {
    DecimalRoundTrip(start);
    DecimalRoundTrip(start + PageSize);
  }
}

=== FILE: sort_strings.dfy ===
/** `sortStrings(arr, param = 'asc')`: a sorted copy of an array of strings.
    With `'asc'` it compares with the Russian/English collation with
    upper case first; with any other `param` it compares with the same
    collation under default options and negates the result. The two
    collations are parameters: `upperFirst` and `standard`. */
module SortStrings {
  import opened Wrappers
  import opened Sorting

  /** `(options ? 1 : -1) * getCompareFunc(a, b, options)`, where `options`
      is `{caseFirst: 'upper'}` for `'asc'` and `false` otherwise: the
      upper-case-first collation as it is, or the default one negated. */
  function StringComparator(ascending: bool, upperFirst: (string, string) -> int,
                            standard: (string, string) -> int): (string, string) -> int
  {
    if ascending then upperFirst else Negate(standard)
  }

  function SortStrings(arr: seq<string>, param: Option<string>,
                       upperFirst: (string, string) -> int,
                       standard: (string, string) -> int): (r: seq<string>)
    requires Comparator(upperFirst) && Comparator(standard)
    ensures multiset(r) == multiset(arr)
    ensures param.GetOr("asc") == "asc" ==> SortedBy(r, upperFirst)
    ensures param.GetOr("asc") != "asc" ==> ReverseSortedBy(r, standard)
  {
    var ascending := param.GetOr("asc") == "asc";
    var cmp := StringComparator(ascending, upperFirst, standard);
    var r := SortBy(arr, cmp);
    if ascending then r
    else
      NegateIsComparator(standard);
      NegatedSortedIsReverseSorted(r, standard);
      r
  }

  /** A sorted two-element permutation is fixed by a strict comparison. */
  lemma SortedPair(r: seq<string>, a: string, b: string, cmp: (string, string) -> int)
    requires Comparator(cmp) && cmp(a, b) < 0
    requires multiset(r) == multiset([a, b]) && SortedBy(r, cmp)
    ensures r == [a, b]
  {
    ComparatorFacts(cmp, a, b);
    ComparatorFacts(cmp, a, a);
    assert |r| == 2 by {
      assert |multiset(r)| == 2;
    }
    assert r[0] in multiset([a, b]) && r[1] in multiset([a, b]);
    assert r == [r[0], r[1]];
  }

  /** The collation asymmetry: two strings that the upper-case-first
      collation and the default collation order oppositely (a letter and
      its other case, say) come out in the same order whether `param` is
      `'asc'` or `'desc'`. */
  lemma OppositeCollationsAgree(a: string, b: string,
                                upperFirst: (string, string) -> int,
                                standard: (string, string) -> int)
    requires Comparator(upperFirst) && Comparator(standard)
    requires upperFirst(a, b) < 0 && standard(b, a) < 0
    ensures SortStrings([b, a], None, upperFirst, standard) == [a, b]
    ensures SortStrings([b, a], Some("desc"), upperFirst, standard) == [a, b]
  {
    var arr := [b, a];
    assert multiset(arr) == multiset([a, b]);
    AscendingPair(arr, a, b, upperFirst, standard);
    DescendingPair(arr, a, b, upperFirst, standard);
  }

  /** `'asc'` puts first the string the upper-case-first collation puts
      first. */
  lemma AscendingPair(arr: seq<string>, a: string, b: string,
                      upperFirst: (string, string) -> int,
                      standard: (string, string) -> int)
    requires Comparator(upperFirst) && Comparator(standard)
    requires upperFirst(a, b) < 0 && multiset(arr) == multiset([a, b])
    ensures SortStrings(arr, None, upperFirst, standard) == [a, b]
  {
    var up := SortStrings(arr, None, upperFirst, standard);
    SortedPair(up, a, b, upperFirst);
  }

  /** `'desc'` puts first the string the default collation puts last. */
  lemma DescendingPair(arr: seq<string>, a: string, b: string,
                       upperFirst: (string, string) -> int,
                       standard: (string, string) -> int)
    requires Comparator(upperFirst) && Comparator(standard)
    requires standard(b, a) < 0 && multiset(arr) == multiset([a, b])
    ensures SortStrings(arr, Some("desc"), upperFirst, standard) == [a, b]
  {
    var down := SortStrings(arr, Some("desc"), upperFirst, standard);
    assert ReverseSortedBy(down, standard);
    NegateIsComparator(standard);
    NegatedSortedIsReverseSorted(down, standard);
    assert Negate(standard)(a, b) < 0;
    SortedPair(down, a, b, Negate(standard));
  }
}

=== FILE: sorting.dfy ===
/** Sorting a copy of a sequence with a three-way comparator, the way
    `Array.prototype.sort(compareFn)` is used throughout the component.

    A comparator returns a negative number, zero or a positive number. It is
    *consistent* when the sign of `cmp(a, b)` is the opposite of the sign of
    `cmp(b, a)` and "at most" (`cmp(a, b) <= 0`) is transitive; for such a
    comparator `cmp(a, b) <= 0` is a total preorder. The sort algorithm and its
    stability are not specified by the language, so only the result's
    properties are promised: it is a permutation of the input and it is
    sorted. Insertion sort is used as a witness of that specification. */
module Sorting {

  /** `cmp` is a consistent comparator over all of `T`. */
  ghost predicate Comparator<T(!new)>(cmp: (T, T) -> int)
  {
    && (forall a, b :: cmp(a, b) < 0 <==> cmp(b, a) > 0)
    && (forall a, b, c :: cmp(a, b) <= 0 && cmp(b, c) <= 0 ==> cmp(a, c) <= 0)
  }

  /** Every earlier element is at most every later one. */
  ghost predicate SortedBy<T>(s: seq<T>, cmp: (T, T) -> int)
  {
    forall i, j :: 0 <= i < j < |s| ==> cmp(s[i], s[j]) <= 0
  }

  /** Every earlier element is at least every later one. */
  ghost predicate ReverseSortedBy<T>(s: seq<T>, cmp: (T, T) -> int)
  {
    forall i, j :: 0 <= i < j < |s| ==> cmp(s[j], s[i]) <= 0
  }

  /** The comparator scaled by -1, as in `(a, b) => -1 * cmp(a, b)`. */
  function Negate<T>(cmp: (T, T) -> int): (T, T) -> int
  {
    (a: T, b: T) => -1 * cmp(a, b)
  }

  lemma ComparatorFacts<T(!new)>(cmp: (T, T) -> int, a: T, b: T)
    requires Comparator(cmp)
    ensures cmp(a, a) == 0
    ensures cmp(a, b) <= 0 || cmp(b, a) <= 0
    ensures cmp(a, b) == 0 <==> cmp(b, a) == 0
    ensures cmp(a, b) >= 0 <==> cmp(b, a) <= 0
  {
    assert cmp(a, a) < 0 <==> cmp(a, a) > 0;
    assert cmp(a, b) < 0 <==> cmp(b, a) > 0;
    assert cmp(b, a) < 0 <==> cmp(a, b) > 0;
  }

  /** Negating a consistent comparator gives a consistent comparator. */
  lemma NegateIsComparator<T(!new)>(cmp: (T, T) -> int)
    requires Comparator(cmp)
    ensures Comparator(Negate(cmp))
  {
    var n := Negate(cmp);
    forall a, b
      ensures n(a, b) < 0 <==> n(b, a) > 0
    {
      assert cmp(b, a) < 0 <==> cmp(a, b) > 0;
    }
    forall a, b, c | n(a, b) <= 0 && n(b, c) <= 0
      ensures n(a, c) <= 0
    {
      ComparatorFacts(cmp, a, b);
      ComparatorFacts(cmp, b, c);
      ComparatorFacts(cmp, a, c);
    }
  }

  /** Sorting under the negated comparator is sorting in reverse under the
      original one, in both directions. */
  lemma NegatedSortedIsReverseSorted<T(!new)>(s: seq<T>, cmp: (T, T) -> int)
    requires Comparator(cmp)
    ensures SortedBy(s, Negate(cmp)) <==> ReverseSortedBy(s, cmp)
  {
    forall i, j | 0 <= i < j < |s|
      ensures Negate(cmp)(s[i], s[j]) <= 0 <==> cmp(s[j], s[i]) <= 0
    {
      ComparatorFacts(cmp, s[i], s[j]);
    }
  }

  /** Inserts `x` before the first element it is at most. */
  function Insert<T>(x: T, s: seq<T>, cmp: (T, T) -> int): (r: seq<T>)
    ensures multiset(r) == multiset(s) + multiset{x}
    decreases |s|
  {
    if |s| == 0 then [x]
    else if cmp(x, s[0]) <= 0 then [x] + s
    else
      assert s == [s[0]] + s[1..];
      [s[0]] + Insert(x, s[1..], cmp)
  }

  /** Inserting into a sorted sequence keeps it sorted. */
  lemma {:induction false} InsertSorted<T(!new)>(x: T, s: seq<T>, cmp: (T, T) -> int)
    requires Comparator(cmp) && SortedBy(s, cmp)
    ensures SortedBy(Insert(x, s, cmp), cmp)
    decreases |s|
  {
    if |s| == 0 {
    } else if cmp(x, s[0]) <= 0 {
      forall k | 0 <= k < |s| ensures cmp(x, s[k]) <= 0 {
        if k > 0 {
          assert cmp(s[0], s[k]) <= 0;
        }
      }
      PrependSorted(x, s, cmp);
    } else {
      var rest := Insert(x, s[1..], cmp);
      assert SortedBy(s[1..], cmp);
      InsertSorted(x, s[1..], cmp);
      forall k | 0 <= k < |rest| ensures cmp(s[0], rest[k]) <= 0 {
        HeadBelowInserted(x, s, cmp, rest[k]);
      }
      PrependSorted(s[0], rest, cmp);
    }
  }

  /** A head at most every element of a sorted sequence keeps it sorted. */
  lemma PrependSorted<T(!new)>(x: T, s: seq<T>, cmp: (T, T) -> int)
    requires SortedBy(s, cmp)
    requires forall k :: 0 <= k < |s| ==> cmp(x, s[k]) <= 0
    ensures SortedBy([x] + s, cmp)
  {
    var r := [x] + s;
    forall i, j | 0 <= i < j < |r| ensures cmp(r[i], r[j]) <= 0 {
      assert r[j] == s[j - 1];
      if i > 0 {
        assert r[i] == s[i - 1];
      }
    }
  }

  /** When `x` goes after the head of a sorted `s`, the head is at most every
      element of what `x` is inserted into. */
  lemma HeadBelowInserted<T(!new)>(x: T, s: seq<T>, cmp: (T, T) -> int, y: T)
    requires Comparator(cmp) && SortedBy(s, cmp)
    requires |s| > 0 && cmp(x, s[0]) > 0
    requires y in multiset(Insert(x, s[1..], cmp))
    ensures cmp(s[0], y) <= 0
  {
    if y == x {
      ComparatorFacts(cmp, x, s[0]);
    } else {
      assert y in s[1..];
      var m :| 0 <= m < |s[1..]| && s[1..][m] == y;
      assert s[m + 1] == y;
    }
  }

  /** A sorted permutation of `s`: the result of sorting a copy of `s`. */
  function SortBy<T(!new)>(s: seq<T>, cmp: (T, T) -> int): (r: seq<T>)
    ensures multiset(r) == multiset(s)
    ensures |r| == |s|
    ensures Comparator(cmp) ==> SortedBy(r, cmp)
    decreases |s|
  {
    if |s| == 0 then []
    else
      assert s == [s[0]] + s[1..];
      var sorted := SortBy(s[1..], cmp);
      var r := Insert(s[0], sorted, cmp);
      assert |r| == |multiset(r)|;
      assert Comparator(cmp) ==> SortedBy(r, cmp) by {
        if Comparator(cmp) {
          InsertSorted(s[0], sorted, cmp);
        }
      }
      r
  }
}

=== FILE: table_core.dfy ===
/** What the two sortable-table variants share: column configuration, rows,
    the sort state and its header-click transition, the initial sort state,
    the `sortData` comparator sort and the header order markers.

    The DOM is abstracted away: the header is the column sequence together
    with a map from column id to the cell's `data-order` marker, and the body
    is the sequence of rows it shows. */
module TableCore {
  import opened Wrappers
  import opened Sorting

  /** A sort direction; `order` values other than `asc`/`desc` are not modelled. */
  datatype Order = Asc | Desc

  /** `sortType` of a column: `number`, `string`, or anything else (a custom
      type, or none), which falls into the comparator's `default` branch. */
  datatype SortType = Number | Str | Custom

  /** One entry of `headerConfig`; cell templates only affect markup. */
  datatype Column = Column(id: string, title: string, sortable: bool, sortType: SortType)

  /** A primitive cell value of a row object. */
  datatype Value = Num(n: int) | Text(s: string)

  /** A row object: field name to value. */
  type Row = map<string, Value>

  /** `this.sorted`. */
  datatype SortState = SortState(id: string, order: Order)

  /** The `sorted` constructor option; a missing property is `None`. */
  datatype SortOverride = SortOverride(id: Option<string>, order: Option<Order>)

  /** Completion of a step: a value, or the `TypeError` JavaScript throws when
      the code dereferences `undefined` or `null`. */
  datatype Completion<T> = Ok(value: T) | TypeError

  /** The header cells' `data-order` markers by column id; `None` is the
      empty marker `''`. A cell never marked has no entry. */
  type Markers = map<string, Option<Order>>

  // ---------------------------------------------------------------------------
  // Array.prototype.find

  /** Index of the first element satisfying `p`, as `find` locates it. */
  function Find<T>(s: seq<T>, p: T -> bool): (r: Option<nat>)
    ensures r.None? <==> forall k :: 0 <= k < |s| ==> !p(s[k])
    ensures r.Some? ==> r.value < |s| && p(s[r.value])
    ensures r.Some? ==> forall k :: 0 <= k < r.value ==> !p(s[k])
    decreases |s|
  {
    if |s| == 0 then None
    else if p(s[0]) then Some(0)
    else
      match Find(s[1..], p)
      case None => None
      case Some(k) => Some(k + 1)
  }

  /** `k` is the first sortable column. */
  ghost predicate IsFirstSortable(columns: seq<Column>, k: int)
  {
    0 <= k < |columns| && columns[k].sortable
    && forall j :: 0 <= j < k ==> !columns[j].sortable
  }

  /** `k` is the first column whose id is `id`. */
  ghost predicate IsFirstWithId(columns: seq<Column>, id: string, k: int)
  {
    0 <= k < |columns| && columns[k].id == id
    && forall j :: 0 <= j < k ==> columns[j].id != id
  }

  /** `headerConfig.find(item => item.id === id)`. */
  function ColumnOf(columns: seq<Column>, id: string): (r: Option<Column>)
    ensures r.None? <==> forall k :: 0 <= k < |columns| ==> columns[k].id != id
    ensures r.Some? ==> exists k :: IsFirstWithId(columns, id, k) && columns[k] == r.value
  {
    match Find(columns, (c: Column) => c.id == id)
    case None => None
    case Some(k) => assert IsFirstWithId(columns, id, k); Some(columns[k])
  }

  // ---------------------------------------------------------------------------
  // Sort state

  function Flip(order: Order): (r: Order)
    ensures r != order
  {
    if order == Asc then Desc else Asc
  }

  /** The initial `this.sorted`: the id of the first sortable column and
      `asc`, each replaced by the `sorted` option's property when it has one.
      The first sortable column is looked up before the override is spread,
      so a configuration without one throws even when `sorted.id` is given. */
  function InitialSortState(columns: seq<Column>, sorted: SortOverride): (r: Completion<SortState>)
    ensures r.TypeError? <==> forall k :: 0 <= k < |columns| ==> !columns[k].sortable
    ensures r.Ok? && sorted.id.Some? ==> r.value.id == sorted.id.value
    ensures r.Ok? && sorted.id.None? ==>
      exists k :: IsFirstSortable(columns, k) && r.value.id == columns[k].id
    ensures r.Ok? ==> r.value.order == (if sorted.order.Some? then sorted.order.value else Asc)
  {
    match Find(columns, (c: Column) => c.sortable)
    case None => TypeError
    case Some(k) =>
      assert IsFirstSortable(columns, k);
      Ok(SortState(sorted.id.GetOr(columns[k].id), sorted.order.GetOr(Asc)))
  }

  /** The header-click handler `sortSelectRow(id)`: clicking the sorted
      column toggles the order; clicking another column sorts by it,
      descending, whatever the previous order was. */
  function NextSortState(s: SortState, id: string): (r: SortState)
    ensures r.id == id
    ensures s.id == id ==> r.order != s.order
    ensures s.id != id ==> r.order == Desc
  {
    if s.id == id then SortState(id, Flip(s.order)) else SortState(id, Desc)
  }

  /** Two clicks on the sorted column restore the sort state. */
  lemma ClickSortedTwiceRestores(s: SortState)
    ensures NextSortState(NextSortState(s, s.id), s.id) == s
  {
  }

  /** A click on another column forgets the previous column and order. */
  lemma ClickOtherForgetsState(s1: SortState, s2: SortState, id: string)
    requires s1.id != id && s2.id != id
    ensures NextSortState(s1, id) == NextSortState(s2, id)
  {
  }

  /** The sort state after a run of header clicks: the last clicked column
      is the sort id, and no clicks leave the state as it was. */
  function ClickAll(s: SortState, clicks: seq<string>): (r: SortState)
    ensures |clicks| > 0 ==> r.id == clicks[|clicks| - 1]
    ensures |clicks| == 0 ==> r == s
    decreases |clicks|
  {
    if |clicks| == 0 then s
    else ClickAll(NextSortState(s, clicks[0]), clicks[1..])
  }

  /** `id` belongs to a sortable column. */
  ghost predicate IsSortableId(columns: seq<Column>, id: string)
  {
    exists k :: 0 <= k < |columns| && columns[k].sortable && columns[k].id == id
  }

  // ---------------------------------------------------------------------------
  // sortData

  /** `directions[order]`. */
  function Direction(order: Order): int
  {
    if order == Asc then 1 else -1
  }

  /** The numeric value of field `id`; only meaningful for rows whose field
      is a number (see `RowsTyped`). */
  function NumKey(row: Row, id: string): int
  {
    if id in row && row[id].Num? then row[id].n else 0
  }

  /** The string value of field `id`; only meaningful for rows whose field
      is a string. */
  function TextKey(row: Row, id: string): string
  {
    if id in row && row[id].Text? then row[id].s else ""
  }

  /** Every row has field `id` of the kind its column's comparator reads:
      a string for `string` columns, a number otherwise. */
  ghost predicate RowsTyped(rows: seq<Row>, id: string, sortType: SortType)
  {
    forall k :: 0 <= k < |rows| ==>
      id in rows[k] && (if sortType == Str then rows[k][id].Text? else rows[k][id].Num?)
  }

  /** The comparator passed to `arr.sort`: `direction * (a[id] - b[id])` for
      `number` and the `default` branch, `direction * localeCompare` (here the
      abstract `collate`) for `string`. */
  function RowComparator(sortType: SortType, id: string, order: Order,
                         collate: (string, string) -> int): (Row, Row) -> int
  {
    if sortType == Str then
      (a: Row, b: Row) => Direction(order) * collate(TextKey(a, id), TextKey(b, id))
    else
      (a: Row, b: Row) => Direction(order) * (NumKey(a, id) - NumKey(b, id))
  }

  /** Rows in the order a column sort promises: by number non-decreasing
      (`asc`) or non-increasing (`desc`), or by collation likewise. */
  ghost predicate OrderedBy(rows: seq<Row>, id: string, sortType: SortType, order: Order,
                            collate: (string, string) -> int)
  {
    forall i, j :: 0 <= i < j < |rows| ==>
      if sortType == Str then
        (if order == Asc then collate(TextKey(rows[i], id), TextKey(rows[j], id)) <= 0
         else collate(TextKey(rows[j], id), TextKey(rows[i], id)) <= 0)
      else
        (if order == Asc then NumKey(rows[i], id) <= NumKey(rows[j], id)
         else NumKey(rows[i], id) >= NumKey(rows[j], id))
  }

  /** Whatever the column type and direction, the row comparator is
      consistent provided the collation is. */
  lemma RowComparatorIsComparator(sortType: SortType, id: string, order: Order,
                                  collate: (string, string) -> int)
    requires Comparator(collate)
    ensures Comparator(RowComparator(sortType, id, order, collate))
  {
    var cmp := RowComparator(sortType, id, order, collate);
    if sortType == Str {
      forall a, b ensures cmp(a, b) < 0 <==> cmp(b, a) > 0 {
        ComparatorFacts(collate, TextKey(a, id), TextKey(b, id));
      }
      forall a, b, c | cmp(a, b) <= 0 && cmp(b, c) <= 0 ensures cmp(a, c) <= 0 {
        var x, y, z := TextKey(a, id), TextKey(b, id), TextKey(c, id);
        ComparatorFacts(collate, x, y);
        ComparatorFacts(collate, y, z);
        ComparatorFacts(collate, x, z);
      }
    } else {
      forall a, b ensures cmp(a, b) < 0 <==> cmp(b, a) > 0 {
      }
      forall a, b, c | cmp(a, b) <= 0 && cmp(b, c) <= 0 ensures cmp(a, c) <= 0 {
      }
    }
  }

  /** Sorted under the row comparator means ordered as the column promises. */
  lemma SortedIsOrderedBy(rows: seq<Row>, sortType: SortType, id: string, order: Order,
                          collate: (string, string) -> int)
    requires Comparator(collate)
    requires SortedBy(rows, RowComparator(sortType, id, order, collate))
    ensures OrderedBy(rows, id, sortType, order, collate)
  {
    var cmp := RowComparator(sortType, id, order, collate);
    forall i, j | 0 <= i < j < |rows|
      ensures if sortType == Str then
        (if order == Asc then collate(TextKey(rows[i], id), TextKey(rows[j], id)) <= 0
         else collate(TextKey(rows[j], id), TextKey(rows[i], id)) <= 0)
      else
        (if order == Asc then NumKey(rows[i], id) <= NumKey(rows[j], id)
         else NumKey(rows[i], id) >= NumKey(rows[j], id))
    {
      assert cmp(rows[i], rows[j]) <= 0;
      if sortType == Str {
        ComparatorFacts(collate, TextKey(rows[i], id), TextKey(rows[j], id));
      }
    }
  }

  /** A permutation of well-typed rows is well typed. */
  lemma PermutationKeepsTyped(rows: seq<Row>, data: seq<Row>, id: string, sortType: SortType)
    requires multiset(rows) == multiset(data)
    requires RowsTyped(data, id, sortType)
    ensures RowsTyped(rows, id, sortType)
  {
    forall k | 0 <= k < |rows|
      ensures id in rows[k] && (if sortType == Str then rows[k][id].Text? else rows[k][id].Num?)
    {
      assert rows[k] in multiset(data);
      var m :| 0 <= m < |data| && data[m] == rows[k];
    }
  }

  /** `sortData(id, order)`: sorts a copy of the table's data by the first
      column whose id is `id`. When no column has that id, `find` yields
      `undefined` and reading its `sortType` throws. */
  function SortData(columns: seq<Column>, data: seq<Row>, id: string, order: Order,
                    collate: (string, string) -> int): (r: Completion<seq<Row>>)
    requires Comparator(collate)
    requires forall k :: 0 <= k < |columns| && columns[k].id == id ==>
               RowsTyped(data, id, columns[k].sortType)
    ensures r.TypeError? <==> forall k :: 0 <= k < |columns| ==> columns[k].id != id
    ensures r.Ok? ==> multiset(r.value) == multiset(data)
    ensures r.Ok? ==> (exists k :: IsFirstWithId(columns, id, k)
                         && RowsTyped(r.value, id, columns[k].sortType)
                         && OrderedBy(r.value, id, columns[k].sortType, order, collate))
  {
    match ColumnOf(columns, id)
    case None => TypeError
    case Some(column) =>
      var cmp := RowComparator(column.sortType, id, order, collate);
      var sorted := SortBy(data, cmp);
      RowComparatorIsComparator(column.sortType, id, order, collate);
      SortedIsOrderedBy(sorted, column.sortType, id, order, collate);
      PermutationKeepsTyped(sorted, data, id, column.sortType);
      Ok(sorted)
  }

  /** The numbers in field `id` of `rows`, in row order. */
  function NumKeys(rows: seq<Row>, id: string): (r: seq<int>)
    ensures |r| == |rows|
    ensures forall k :: 0 <= k < |rows| ==> r[k] == NumKey(rows[k], id)
  {
    seq(|rows|, k requires 0 <= k < |rows| => NumKey(rows[k], id))
  }

  function Reverse<T>(s: seq<T>): (r: seq<T>)
    ensures |r| == |s|
    ensures forall k :: 0 <= k < |s| ==> r[k] == s[|s| - 1 - k]
  {
    seq(|s|, k requires 0 <= k < |s| => s[|s| - 1 - k])
  }

  lemma {:induction false} ReverseMultiset<T>(s: seq<T>)
    ensures multiset(Reverse(s)) == multiset(s)
    decreases |s|
  {
    if |s| > 0 {
      ReverseMultiset(s[1..]);
      assert Reverse(s) == Reverse(s[1..]) + [s[0]];
      assert s == [s[0]] + s[1..];
    }
  }

  lemma NumKeysAppend(a: seq<Row>, b: seq<Row>, id: string)
    ensures NumKeys(a + b, id) == NumKeys(a, id) + NumKeys(b, id)
  {
  }

  /** Permuted rows have permuted keys. */
  lemma {:induction false} NumKeysMultiset(p: seq<Row>, q: seq<Row>, id: string)
    requires multiset(p) == multiset(q)
    ensures multiset(NumKeys(p, id)) == multiset(NumKeys(q, id))
    decreases |p|
  {
    if |p| == 0 {
      assert |q| == |multiset(q)| == 0;
    } else {
      var x, p' := p[0], p[1..];
      assert x in multiset(q);
      var j :| 0 <= j < |q| && q[j] == x;
      var q1, q2 := q[..j], q[j + 1..];
      assert q == q1 + [x] + q2;
      assert p == [x] + p';
      var q' := q1 + q2;
      assert multiset(q') == multiset(p') by {
        assert multiset(q) == multiset(q1) + multiset{x} + multiset(q2);
        assert multiset(q') == multiset(q) - multiset{x};
        assert multiset(p) == multiset{x} + multiset(p');
        assert multiset(p') == multiset(p) - multiset{x};
      }
      NumKeysMultiset(p', q', id);
      NumKeysSplit(q1, x, q2, id);
      NumKeysAppend([x], p', id);
    }
  }

  /** Taking one row out of the middle takes its key out of the keys. */
  lemma NumKeysSplit(q1: seq<Row>, x: Row, q2: seq<Row>, id: string)
    ensures multiset(NumKeys(q1 + [x] + q2, id))
         == multiset(NumKeys(q1 + q2, id)) + multiset(NumKeys([x], id))
  {
    NumKeysAppend(q1 + [x], q2, id);
    NumKeysAppend(q1, [x], id);
    NumKeysAppend(q1, q2, id);
  }

  ghost predicate NonDecreasing(s: seq<int>)
  {
    forall i, j :: 0 <= i < j < |s| ==> s[i] <= s[j]
  }

  /** Sorting fixes a sequence of numbers up to permutation: two
      non-decreasing permutations of each other are equal. */
  lemma {:induction false} SortedIntsUnique(a: seq<int>, b: seq<int>)
    requires multiset(a) == multiset(b) && NonDecreasing(a) && NonDecreasing(b)
    ensures a == b
    decreases |a|
  {
    assert |b| == |multiset(b)| == |multiset(a)| == |a|;
    if |a| > 0 {
      SortedHeadsEqual(a, b);
      var a', b' := a[1..], b[1..];
      TailsPermuted(a, b);
      assert NonDecreasing(a') && NonDecreasing(b');
      SortedIntsUnique(a', b');
      assert a == [a[0]] + a';
      assert b == [b[0]] + b';
    }
  }

  /** Permutations with the same first element have permuted tails. */
  lemma TailsPermuted(a: seq<int>, b: seq<int>)
    requires multiset(a) == multiset(b) && |a| > 0 && |b| > 0 && a[0] == b[0]
    ensures multiset(a[1..]) == multiset(b[1..])
  {
    assert a == [a[0]] + a[1..];
    assert b == [b[0]] + b[1..];
    assert multiset(a[1..]) == multiset(a) - multiset{a[0]};
    assert multiset(b[1..]) == multiset(b) - multiset{b[0]};
  }

  /** Non-decreasing permutations of each other start with the same least
      number. */
  lemma SortedHeadsEqual(a: seq<int>, b: seq<int>)
    requires multiset(a) == multiset(b) && NonDecreasing(a) && NonDecreasing(b)
    requires |a| > 0 && |b| > 0
    ensures a[0] == b[0]
  {
    assert a[0] in multiset(b);
    var i :| 0 <= i < |b| && b[i] == a[0];
    assert b[0] in multiset(a);
    var j :| 0 <= j < |a| && a[j] == b[0];
  }

  /** Sorting a numeric (or default-branch) column descending yields the
      ascending result's numbers in reverse; rows with equal numbers may
      come in any order either way. */
  lemma NumericDescendingReversesAscending(columns: seq<Column>, data: seq<Row>, id: string,
                                           collate: (string, string) -> int)
    requires Comparator(collate)
    requires forall k :: 0 <= k < |columns| && columns[k].id == id ==>
               RowsTyped(data, id, columns[k].sortType)
    requires ColumnOf(columns, id).Some? && ColumnOf(columns, id).value.sortType != Str
    ensures SortData(columns, data, id, Asc, collate).Ok?
    ensures SortData(columns, data, id, Desc, collate).Ok?
    ensures NumKeys(SortData(columns, data, id, Asc, collate).value, id)
         == Reverse(NumKeys(SortData(columns, data, id, Desc, collate).value, id))
  {
    var up := SortData(columns, data, id, Asc, collate).value;
    var down := SortData(columns, data, id, Desc, collate).value;
    var k :| IsFirstWithId(columns, id, k) && OrderedBy(up, id, columns[k].sortType, Asc, collate);
    var k' :| IsFirstWithId(columns, id, k') && OrderedBy(down, id, columns[k'].sortType, Desc, collate);
    FirstWithIdUnique(columns, id, k, k');
    NumKeysMultiset(up, down, id);
    ReverseMultiset(NumKeys(down, id));
    AscendingKeys(up, id, columns[k].sortType, collate);
    DescendingKeys(down, id, columns[k].sortType, collate);
    SortedIntsUnique(NumKeys(up, id), Reverse(NumKeys(down, id)));
  }

  lemma FirstWithIdUnique(columns: seq<Column>, id: string, k: int, k': int)
    requires IsFirstWithId(columns, id, k) && IsFirstWithId(columns, id, k')
    ensures k == k'
  {
  }

  lemma AscendingKeys(rows: seq<Row>, id: string, sortType: SortType, collate: (string, string) -> int)
    requires sortType != Str && OrderedBy(rows, id, sortType, Asc, collate)
    ensures NonDecreasing(NumKeys(rows, id))
  {
  }

  lemma DescendingKeys(rows: seq<Row>, id: string, sortType: SortType, collate: (string, string) -> int)
    requires sortType != Str && OrderedBy(rows, id, sortType, Desc, collate)
    ensures NonDecreasing(Reverse(NumKeys(rows, id)))
  {
    var b := Reverse(NumKeys(rows, id));
    forall i, j | 0 <= i < j < |b| ensures b[i] <= b[j] {
      assert b[i] == NumKey(rows[|rows| - 1 - i], id);
      assert b[j] == NumKey(rows[|rows| - 1 - j], id);
    }
  }

  // ---------------------------------------------------------------------------
  // Header order markers

  /** The ids of all header cells. */
  function ColumnIds(columns: seq<Column>): set<string>
  {
    set k | 0 <= k < |columns| :: columns[k].id
  }

  /** Every header cell has a marker entry, the cell of `s.id` is marked with
      `s.order`, and every other cell's marker is empty. */
  ghost predicate HeaderMarked(columns: seq<Column>, markers: Markers, s: SortState)
  {
    && markers.Keys == ColumnIds(columns)
    && s.id in markers && markers[s.id] == Some(s.order)
    && forall c :: c in markers && c != s.id ==> markers[c].None?
  }

  /** Clearing every header cell's `data-order` and setting it to `order` on
      the cell of column `id`. The cell is looked up with `querySelector`,
      which yields `null` when no column has that id, and setting its marker
      throws. */
  function MarkActive(columns: seq<Column>, id: string, order: Order): (r: Completion<Markers>)
    ensures r.TypeError? <==> id !in ColumnIds(columns)
    ensures r.Ok? ==> r.value.Keys == ColumnIds(columns)
    ensures r.Ok? ==> forall c :: c in r.value ==> (r.value[c].Some? <==> c == id)
    ensures r.Ok? ==> r.value[id] == Some(order)
    ensures r.Ok? ==> HeaderMarked(columns, r.value, SortState(id, order))
  {
    if id !in ColumnIds(columns) then TypeError
    else Ok(map c | c in ColumnIds(columns) :: if c == id then Some(order) else None)
  }

  /** The header after `allColumns.forEach(... dataset.order = '')` alone:
      every cell's marker emptied, so the header shows no sort state. */
  function ClearedMarkers(columns: seq<Column>): (r: Markers)
    ensures r.Keys == ColumnIds(columns)
    ensures forall c :: c in r ==> r[c].None?
    ensures ReadActive(columns, r) == None
  {
    var m := map c | c in ColumnIds(columns) :: None;
    UnmarkedReadsNothing(columns, m);
    m
  }

  /** A header none of whose cells carries a marker shows no sort state. */
  lemma {:induction false} UnmarkedReadsNothing(columns: seq<Column>, m: Markers)
    requires forall c :: c in m ==> m[c].None?
    ensures ReadActive(columns, m) == None
    decreases |columns|
  {
    if |columns| > 0 {
      UnmarkedReadsNothing(columns[1..], m);
    }
  }

  /** The sort state a reader recovers from the header: the first column,
      in header order, whose cell carries a marker. */
  function ReadActive(columns: seq<Column>, markers: Markers): (r: Option<SortState>)
    ensures r.Some? ==> r.value.id in markers && markers[r.value.id] == Some(r.value.order)
    decreases |columns|
  {
    if |columns| == 0 then None
    else
      var id := columns[0].id;
      if id in markers && markers[id].Some? then Some(SortState(id, markers[id].value))
      else ReadActive(columns[1..], markers)
  }

  /** The header shows exactly the sort state it was marked with. */
  lemma {:induction false} MarkActiveReadsBack(columns: seq<Column>, id: string, order: Order)
    requires id in ColumnIds(columns)
    ensures MarkActive(columns, id, order).Ok?
    ensures ReadActive(columns, MarkActive(columns, id, order).value) == Some(SortState(id, order))
    decreases |columns|
  {
    var m := MarkActive(columns, id, order).value;
    if columns[0].id != id {
      assert id in ColumnIds(columns[1..]) by {
        var k :| 0 <= k < |columns| && columns[k].id == id;
        assert columns[1..][k - 1] == columns[k];
      }
      assert ColumnIds(columns[1..]) <= ColumnIds(columns) by {
        forall c | c in ColumnIds(columns[1..]) ensures c in ColumnIds(columns) {
          var k :| 0 <= k < |columns[1..]| && columns[1..][k].id == c;
          assert columns[k + 1].id == c;
        }
      }
      MarkActiveReadsBack(columns[1..], id, order);
      var m' := MarkActive(columns[1..], id, order).value;
      ReadActiveAgrees(columns[1..], m', m);
    }
  }

  /** `ReadActive` only looks at the entries of the given columns. */
  lemma {:induction false} ReadActiveAgrees(columns: seq<Column>, m1: Markers, m2: Markers)
    requires forall c :: c in ColumnIds(columns) ==>
      (c in m1 <==> c in m2) && (c in m1 ==> m1[c] == m2[c])
    ensures ReadActive(columns, m1) == ReadActive(columns, m2)
    decreases |columns|
  {
    if |columns| > 0 {
      assert columns[0].id in ColumnIds(columns);
      forall c | c in ColumnIds(columns[1..]) ensures c in ColumnIds(columns) {
        var k :| 0 <= k < |columns[1..]| && columns[1..][k].id == c;
        assert columns[k + 1].id == c;
      }
      ReadActiveAgrees(columns[1..], m1, m2);
    }
  }

  // ---------------------------------------------------------------------------
  // Construction options and the rendered element

  /** The `data` option: an array of rows, or an object whose `data`
      property holds them (possibly missing). */
  datatype DataArg = Rows(rows: seq<Row>) | Wrapped(data: Option<seq<Row>>)

  /** The constructor options `{url, data, sorted, isSortLocally}`; a missing
      option is `None` and takes the variant's default. */
  datatype Options = Options(url: Option<string>, data: Option<DataArg>,
                             sorted: Option<SortOverride>, isSortLocally: Option<bool>)

  /** `this.data`: `data` itself when it is an array, otherwise its `data`
      property; the default is the empty array. `None` is `undefined`. */
  function NormalizeData(data: Option<DataArg>): (r: Option<seq<Row>>)
    ensures data.None? ==> r == Some([])
    ensures data.Some? && data.value.Rows? ==> r == Some(data.value.rows)
    ensures data.Some? && data.value.Wrapped? ==> r == data.value.data
  {
    match data
    case None => Some([])
    case Some(Rows(rows)) => Some(rows)
    case Some(Wrapped(inner)) => inner
  }

  /** The mounted element as far as the model sees it: the header cells'
      order markers and the rows the body shows. */
  datatype View = View(markers: Markers, body: seq<Row>)

  /** The row data can be compared under every column's sort type. */
  ghost predicate DataTyped(columns: seq<Column>, data: seq<Row>)
  {
    forall k :: 0 <= k < |columns| ==> RowsTyped(data, columns[k].id, columns[k].sortType)
  }

  /** `updateData(rows, id, order)` on a mounted element: marks the header
      and shows `rows` in the body. */
  function UpdateView(columns: seq<Column>, rows: seq<Row>, id: string, order: Order): (r: Completion<View>)
    ensures r.TypeError? <==> id !in ColumnIds(columns)
    ensures r.Ok? ==> r.value.body == rows
    ensures r.Ok? ==> HeaderMarked(columns, r.value.markers, SortState(id, order))
    ensures r.Ok? ==> ReadActive(columns, r.value.markers) == Some(SortState(id, order))
  {
    match MarkActive(columns, id, order)
    case TypeError => TypeError
    case Ok(markers) =>
      MarkActiveReadsBack(columns, id, order);
      Ok(View(markers, rows))
  }

  /** The view shows `data` sorted as `s` asks, and its header is marked
      with `s`. */
  ghost predicate ShowsSorted(columns: seq<Column>, data: seq<Row>, s: SortState, view: View,
                              collate: (string, string) -> int)
  {
    && multiset(view.body) == multiset(data)
    && (exists k :: IsFirstWithId(columns, s.id, k)
                    && OrderedBy(view.body, s.id, columns[k].sortType, s.order, collate))
    && HeaderMarked(columns, view.markers, s)
    && ReadActive(columns, view.markers) == Some(s)
  }

  /** `sortData` followed by `updateData` (v3's `sortOnClient`, and the body
      of v2's `sortOnClient`), on the element `view`; `None` is a destroyed
      table whose `element` is `null`. */
  function SortIntoView(columns: seq<Column>, data: seq<Row>, s: SortState, view: Option<View>,
                        collate: (string, string) -> int): (r: Completion<View>)
    requires Comparator(collate) && DataTyped(columns, data)
    ensures r.TypeError? <==> s.id !in ColumnIds(columns) || view.None?
    ensures r.Ok? ==> ShowsSorted(columns, data, s, r.value, collate)
  {
    assert s.id !in ColumnIds(columns) <==> forall k :: 0 <= k < |columns| ==> columns[k].id != s.id;
    match SortData(columns, data, s.id, s.order, collate)
    case TypeError => TypeError
    case Ok(rows) =>
      if view.None? then TypeError else UpdateView(columns, rows, s.id, s.order)
  }
}

=== FILE: table_v2.dfy ===
/** The sortable table of the events chapter: client-side sorting by default,
    an empty server-side sort, header-click listeners recorded for
    `destroy`. Every step is a function from the table to its next state. */
module TableV2 {
  import opened Wrappers
  import opened Sorting
  import opened TableCore
  import opened Listeners

  datatype Table = Table(
    columns: seq<Column>,
    data: seq<Row>,
    sorted: SortState,
    isSortLocally: bool,
    element: Option<View>,   // None once `destroy` has set it to null
    registry: Registry)

  /** What every constructed table satisfies and every step keeps. */
  ghost predicate Valid(t: Table)
  {
    DataTyped(t.columns, t.data) && WellFormed(t.columns, t.registry)
  }

  /** `sort()`: `sortOnClient` in local mode; in server mode `sortOnServer`,
      which is empty. */
  function Sort(t: Table, collate: (string, string) -> int): (r: Completion<Table>)
    requires Comparator(collate) && DataTyped(t.columns, t.data)
    ensures !t.isSortLocally ==> r == Ok(t)
    ensures t.isSortLocally ==>
      (r.TypeError? <==> t.sorted.id !in ColumnIds(t.columns) || t.element.None?)
    ensures r.Ok? ==> r.value.(element := t.element) == t
    ensures r.Ok? && t.isSortLocally ==>
      r.value.element.Some? && ShowsSorted(t.columns, t.data, t.sorted, r.value.element.value, collate)
  {
    if !t.isSortLocally then Ok(t)
    else
      match SortIntoView(t.columns, t.data, t.sorted, t.element, collate)
      case TypeError => TypeError
      case Ok(view) => Ok(t.(element := Some(view)))
  }

  /** The handler `sortSelectRow(id)` runs on a header press. */
  function SortSelectRow(t: Table, id: string, collate: (string, string) -> int): (r: Completion<Table>)
    requires Comparator(collate) && DataTyped(t.columns, t.data)
    ensures r.Ok? ==> r.value.sorted.id == id
    ensures r.Ok? && t.sorted.id == id ==> r.value.sorted.order == Flip(t.sorted.order)
    ensures r.Ok? && t.sorted.id != id ==> r.value.sorted.order == Desc
    ensures r.Ok? ==> r.value.data == t.data && r.value.registry == t.registry
    ensures r.Ok? && t.isSortLocally ==>
      r.value.element.Some? && ShowsSorted(t.columns, t.data, r.value.sorted, r.value.element.value, collate)
  {
    Sort(t.(sorted := NextSortState(t.sorted, id)), collate)
  }

  /** A `pointerdown` on header cell `cell`: runs the handler attached
      there, if any. On a mounted header a press on a sortable cell sorts by
      that cell's own column and a press anywhere else does nothing. */
  function PointerDown(t: Table, cell: nat, collate: (string, string) -> int): (r: Completion<Table>)
    requires Comparator(collate) && DataTyped(t.columns, t.data)
    ensures Mounted(t.columns, t.registry) ==>
      r == (if cell < |t.columns| && t.columns[cell].sortable
            then SortSelectRow(t, t.columns[cell].id, collate) else Ok(t))
    ensures WellFormed(t.columns, t.registry) && HandlerOn(t.registry, cell).Some? ==>
      cell < |t.columns| && t.columns[cell].sortable
      && r == SortSelectRow(t, t.columns[cell].id, collate)
    ensures HandlerOn(t.registry, cell).None? ==> r == Ok(t)
    ensures r.Ok? ==> r.value.(sorted := t.sorted, element := t.element) == t
  {
    match HandlerOn(t.registry, cell)
    case None => Ok(t)
    case Some(id) =>
      assert WellFormed(t.columns, t.registry) ==> id == t.columns[cell].id by {
        if WellFormed(t.columns, t.registry) {
          HandlerOfItsCell(t.columns, t.registry, cell);
        }
      }
      SortSelectRow(t, id, collate)
  }

  /** A press on a live table never throws, and keeps the table valid. */
  lemma PointerDownKeepsValid(t: Table, cell: nat, collate: (string, string) -> int)
    requires Comparator(collate) && Valid(t) && t.element.Some?
    ensures PointerDown(t, cell, collate).Ok?
    ensures Valid(PointerDown(t, cell, collate).value)
    ensures PointerDown(t, cell, collate).value.element.Some?
  {
    if HandlerOn(t.registry, cell).Some? {
      HandlerOfItsCell(t.columns, t.registry, cell);
      assert t.columns[cell].id in ColumnIds(t.columns);
    }
  }

  /** A run of header presses, one `pointerdown` after another. */
  function Presses(t: Table, cells: seq<nat>, collate: (string, string) -> int): (r: Completion<Table>)
    requires Comparator(collate) && DataTyped(t.columns, t.data)
    ensures r.Ok? ==> r.value.columns == t.columns && r.value.data == t.data
    decreases |cells|
  {
    if |cells| == 0 then Ok(t)
    else
      match PointerDown(t, cells[0], collate)
      case TypeError => TypeError
      case Ok(u) => Presses(u, cells[1..], collate)
  }

  /** However the user presses the header of a live table, no press throws,
      the table stays valid, and the table is sorted either by the column it
      started with or by a sortable column that was pressed. */
  lemma {:induction false} PressesEndOnSortableColumn(t: Table, cells: seq<nat>,
                                                      collate: (string, string) -> int)
    requires Comparator(collate) && Valid(t) && t.element.Some?
    ensures Presses(t, cells, collate).Ok?
    ensures var u := Presses(t, cells, collate).value;
      Valid(u) && u.element.Some?
      && (u.sorted == t.sorted || IsSortableId(t.columns, u.sorted.id))
    decreases |cells|
  {
    if |cells| > 0 {
      PointerDownKeepsValid(t, cells[0], collate);
      var u := PointerDown(t, cells[0], collate).value;
      if HandlerOn(t.registry, cells[0]).Some? {
        HandlerOfItsCell(t.columns, t.registry, cells[0]);
        assert IsSortableId(t.columns, u.sorted.id);
      }
      PressesEndOnSortableColumn(u, cells[1..], collate);
    }
  }

  /** The constructor followed by `render()`: the data is normalised, the
      initial sort state chosen, the element mounted showing the data as
      given, listeners attached to the sortable headers, and `sort()` run.
      Mode defaults to local. `render` is synchronous, so a throw anywhere in
      it (rows that are `undefined`, an initial id no column has) escapes the
      constructor and no table exists. */
  function Construct(columns: seq<Column>, options: Options, collate: (string, string) -> int): (r: Completion<Table>)
    requires Comparator(collate)
    requires NormalizeData(options.data).Some? ==> DataTyped(columns, NormalizeData(options.data).value)
    ensures r.TypeError? <==>
      || (forall k :: 0 <= k < |columns| ==> !columns[k].sortable)
      || NormalizeData(options.data).None?
      || (options.isSortLocally.GetOr(true)
          && InitialSortState(columns, options.sorted.GetOr(SortOverride(None, None))).value.id
             !in ColumnIds(columns))
    ensures r.Ok? ==> Valid(r.value) && r.value.columns == columns
    ensures r.Ok? ==> Some(r.value.data) == NormalizeData(options.data)
    ensures r.Ok? ==> Ok(r.value.sorted) == InitialSortState(columns, options.sorted.GetOr(SortOverride(None, None)))
    ensures r.Ok? ==> r.value.isSortLocally == options.isSortLocally.GetOr(true)
    ensures r.Ok? ==> Mounted(columns, r.value.registry)
    ensures r.Ok? && !r.value.isSortLocally ==> r.value.element == Some(View(map[], r.value.data))
    ensures r.Ok? && r.value.isSortLocally ==>
      (r.value.element.Some?
       && ShowsSorted(columns, r.value.data, r.value.sorted, r.value.element.value, collate))
  {
    match InitialSortState(columns, options.sorted.GetOr(SortOverride(None, None)))
    case TypeError => TypeError
    case Ok(sorted) =>
      match NormalizeData(options.data)
      case None => TypeError
      case Some(data) =>
        var registry := MountedRegistry(columns);
        var t := Table(columns, data, sorted, options.isSortLocally.GetOr(true),
                       Some(View(map[], data)), registry);
        Sort(t, collate)
  }

  /** `destroy()`: the element is removed and nulled, and every recorded
      listener unregistered. */
  function Destroy(t: Table): (r: Table)
    ensures r.element.None?
    ensures forall c: nat :: WellFormed(t.columns, t.registry) ==> HandlerOn(r.registry, c).None?
    ensures r.(element := t.element, registry := t.registry) == t
  {
    forall c: nat | WellFormed(t.columns, t.registry) ensures HandlerOn(RemoveClickListeners(t.registry), c).None? {
      RemovedHandlersNeverRun(t.registry, c);
    }
    t.(element := None, registry := RemoveClickListeners(t.registry))
  }

  /** After `destroy`, header presses do nothing, and destroying again
      changes nothing. */
  lemma DestroyIsFinal(t: Table, cell: nat, collate: (string, string) -> int)
    requires Comparator(collate) && Valid(t)
    ensures PointerDown(Destroy(t), cell, collate) == Ok(Destroy(t))
    ensures Destroy(Destroy(t)) == Destroy(t)
  {
    RemovedHandlersNeverRun(t.registry, cell);
  }

  /** Server mode never changes the table on a press: `sortOnServer` is
      empty, so only the sort state moves. */
  lemma ServerModeKeepsView(t: Table, id: string, collate: (string, string) -> int)
    requires Comparator(collate) && DataTyped(t.columns, t.data) && !t.isSortLocally
    ensures SortSelectRow(t, id, collate) == Ok(t.(sorted := NextSortState(t.sorted, id)))
  {
  }
}

=== FILE: table_v3.dfy ===
/** The sortable table of the fetch chapter: server-side sorting by default,
    and infinite scrolling that appends one page of rows per scroll signal.

    Each step is a function from the table to its next state together with
    the request it issued, if any; the page the server answers with is an
    argument of the step that consumes it. The scroll handler awaits its
    fetch, so it is split at the `await` into `ScrollBegin` and `ScrollEnd`;
    `Scroll` is the handler run without interruption. */
module TableV3 {
  import opened Wrappers
  import opened Sorting
  import opened TableCore
  import opened Listeners
  import opened Request

  datatype Table = Table(
    columns: seq<Column>,
    url: string,
    data: seq<Row>,
    sorted: SortState,
    isSortLocally: bool,
    visibleRows: nat,
    isLoading: bool,
    sortedData: seq<Row>,
    element: Option<View>,   // None once `destroy` has set it to null
    registry: Registry,
    scrollListening: bool,   // the document `scroll` listener is attached
    scrollTrigger: bool)     // `render` finished and assigned `scrollTrigger`

  /** A completed step and the request it sent. */
  datatype Step = Step(table: Table, fetch: Option<Request>)

  ghost predicate Valid(t: Table)
  {
    DataTyped(t.columns, t.data) && WellFormed(t.columns, t.registry)
  }

  /** `updateData(rows, id, order)` on the table's element. */
  function UpdateData(t: Table, rows: seq<Row>, s: SortState): (r: Completion<View>)
    ensures r.TypeError? <==> t.element.None? || s.id !in ColumnIds(t.columns)
    ensures r.Ok? ==> r.value.body == rows
    ensures r.Ok? ==> HeaderMarked(t.columns, r.value.markers, s)
    ensures r.Ok? ==> ReadActive(t.columns, r.value.markers) == Some(s)
  {
    if t.element.None? then TypeError else UpdateView(t.columns, rows, s.id, s.order)
  }

  /** `sort()`: resets `visibleRows`, then sorts the data locally, or
      requests the first page for the sort state and shows `page`, the
      server's answer, in place of whatever was shown. */
  function Sort(t: Table, page: seq<Row>, collate: (string, string) -> int): (r: Completion<Step>)
    requires Comparator(collate) && DataTyped(t.columns, t.data)
    ensures r.TypeError? <==> t.element.None? || t.sorted.id !in ColumnIds(t.columns)
    ensures r.Ok? ==> r.value.table.visibleRows == 0
    ensures r.Ok? ==> r.value.table.(visibleRows := t.visibleRows, sortedData := t.sortedData,
                                     element := t.element) == t
    ensures r.Ok? && t.isSortLocally ==> r.value.fetch.None?
    ensures r.Ok? && t.isSortLocally ==>
      var u := r.value.table;
      u.element.Some? && u.element.value.body == u.sortedData
      && ShowsSorted(t.columns, t.data, t.sorted, u.element.value, collate)
    ensures r.Ok? && !t.isSortLocally ==>
      r.value.fetch == Some(GetData(t.url, t.sorted.id, t.sorted.order, 0))
    ensures r.Ok? && !t.isSortLocally ==>
      var u := r.value.table;
      u.sortedData == page && u.element.Some? && u.element.value.body == page
      && HeaderMarked(t.columns, u.element.value.markers, t.sorted)
      && ReadActive(t.columns, u.element.value.markers) == Some(t.sorted)
  {
    var t0 := t.(visibleRows := 0);
    if t.isSortLocally then
      match SortIntoView(t.columns, t.data, t.sorted, t.element, collate)
      case TypeError => TypeError
      case Ok(view) => Ok(Step(t0.(sortedData := view.body, element := Some(view)), None))
    else
      var request := GetData(t.url, t.sorted.id, t.sorted.order, 0);
      match UpdateData(t0, page, t.sorted)
      case TypeError => TypeError
      case Ok(view) => Ok(Step(t0.(sortedData := page, element := Some(view)), Some(request)))
  }

  /** The handler `sortSelectRow(id)`: the click transition, then `sort()`. */
  function SortSelectRow(t: Table, id: string, page: seq<Row>, collate: (string, string) -> int): (r: Completion<Step>)
    requires Comparator(collate) && DataTyped(t.columns, t.data)
    ensures r.Ok? ==> r.value.table.sorted.id == id && r.value.table.visibleRows == 0
    ensures r.Ok? && t.sorted.id == id ==> r.value.table.sorted.order == Flip(t.sorted.order)
    ensures r.Ok? && t.sorted.id != id ==> r.value.table.sorted.order == Desc
    ensures r.TypeError? <==> t.element.None? || id !in ColumnIds(t.columns)
    ensures r.Ok? ==> r.value.table.data == t.data && r.value.table.registry == t.registry
    ensures r.Ok? && t.isSortLocally ==>
      var u := r.value.table;
      r.value.fetch.None? && u.element.Some?
      && ShowsSorted(t.columns, t.data, u.sorted, u.element.value, collate)
    ensures r.Ok? && !t.isSortLocally ==>
      var u := r.value.table;
      && r.value.fetch == Some(GetData(t.url, id, u.sorted.order, 0))
      && u.sortedData == page && u.element.Some? && u.element.value.body == page
      && HeaderMarked(t.columns, u.element.value.markers, u.sorted)
  {
    Sort(t.(sorted := NextSortState(t.sorted, id)), page, collate)
  }

  /** A `pointerdown` on header cell `cell`: on a mounted header a press on
      a sortable cell sorts by that cell's own column, and a press anywhere
      else does nothing and sends nothing. */
  function PointerDown(t: Table, cell: nat, page: seq<Row>, collate: (string, string) -> int): (r: Completion<Step>)
    requires Comparator(collate) && DataTyped(t.columns, t.data)
    ensures Mounted(t.columns, t.registry) ==>
      r == (if cell < |t.columns| && t.columns[cell].sortable
            then SortSelectRow(t, t.columns[cell].id, page, collate) else Ok(Step(t, None)))
    ensures WellFormed(t.columns, t.registry) && HandlerOn(t.registry, cell).Some? ==>
      cell < |t.columns| && t.columns[cell].sortable
      && r == SortSelectRow(t, t.columns[cell].id, page, collate)
    ensures HandlerOn(t.registry, cell).None? ==> r == Ok(Step(t, None))
    ensures r.Ok? ==>
      r.value.table.columns == t.columns && r.value.table.data == t.data
      && r.value.table.registry == t.registry && r.value.table.scrollTrigger == t.scrollTrigger
  {
    match HandlerOn(t.registry, cell)
    case None => Ok(Step(t, None))
    case Some(id) =>
      assert WellFormed(t.columns, t.registry) ==> id == t.columns[cell].id by {
        if WellFormed(t.columns, t.registry) {
          HandlerOfItsCell(t.columns, t.registry, cell);
        }
      }
      SortSelectRow(t, id, page, collate)
  }

  /** A press on a live table never throws, and keeps the table valid and
      mounted. */
  lemma PointerDownKeepsValid(t: Table, cell: nat, page: seq<Row>, collate: (string, string) -> int)
    requires Comparator(collate) && Valid(t) && t.element.Some?
    ensures PointerDown(t, cell, page, collate).Ok?
    ensures var u := PointerDown(t, cell, page, collate).value.table;
      Valid(u) && u.element.Some?
  {
    if HandlerOn(t.registry, cell).Some? {
      HandlerOfItsCell(t.columns, t.registry, cell);
      assert t.columns[cell].id in ColumnIds(t.columns);
    }
  }

  /** The scroll handler up to its `await`. Its guard first asks the
      `scrollTrigger` element for its position, which throws while `render`
      has not assigned it. Otherwise, when the trigger is near and no page
      is loading, it takes the loading flag, advances `visibleRows` by a
      page and requests the next page under the current sort state. */
  function ScrollBegin(t: Table, near: bool): (r: Completion<Step>)
    ensures r.TypeError? <==> !t.scrollTrigger
    ensures t.scrollTrigger && (!near || t.isLoading) ==> r == Ok(Step(t, None))
    ensures t.scrollTrigger && near && !t.isLoading ==>
      && r.value.table == t.(isLoading := true, visibleRows := t.visibleRows + PageSize)
      && r.value.fetch == Some(GetData(t.url, t.sorted.id, t.sorted.order, t.visibleRows + PageSize))
  {
    if !t.scrollTrigger then TypeError
    else if near && !t.isLoading then
      var t1 := t.(isLoading := true, visibleRows := t.visibleRows + PageSize);
      Ok(Step(t1, Some(GetData(t.url, t.sorted.id, t.sorted.order, t1.visibleRows))))
    else Ok(Step(t, None))
  }

  /** The scroll handler after its `await`: appends the fetched `page` to
      the shown rows, shows them under the sort state `s` read before the
      `await`, and releases the loading flag. */
  function ScrollEnd(t: Table, s: SortState, page: seq<Row>): (r: Completion<Table>)
    ensures r.TypeError? <==> t.element.None? || s.id !in ColumnIds(t.columns)
    ensures r.Ok? ==> r.value.sortedData == t.sortedData + page && !r.value.isLoading
    ensures r.Ok? ==> r.value.element.Some? && r.value.element.value.body == r.value.sortedData
    ensures r.Ok? ==> HeaderMarked(t.columns, r.value.element.value.markers, s)
    ensures r.Ok? ==> ReadActive(t.columns, r.value.element.value.markers) == Some(s)
    ensures r.Ok? ==> r.value.(sortedData := t.sortedData, element := t.element, isLoading := t.isLoading) == t
  {
    var rows := t.sortedData + page;
    match UpdateData(t, rows, s)
    case TypeError => TypeError
    case Ok(view) => Ok(t.(sortedData := rows, element := Some(view), isLoading := false))
  }

  /** `scrollHandler` run without another step between its fetch and the
      answer: nothing changes unless the trigger is near and nothing is
      loading; then exactly one page more is requested and appended. */
  function Scroll(t: Table, near: bool, page: seq<Row>): (r: Completion<Step>)
    ensures !t.scrollTrigger ==> r.TypeError?
    ensures t.scrollTrigger && (!near || t.isLoading) ==> r == Ok(Step(t, None))
    ensures t.scrollTrigger && near && !t.isLoading ==>
      (r.TypeError? <==> t.element.None? || t.sorted.id !in ColumnIds(t.columns))
    ensures t.scrollTrigger && near && !t.isLoading && r.Ok? ==>
      var u := r.value.table;
      && u.visibleRows == t.visibleRows + PageSize
      && u.sortedData == t.sortedData + page
      && !u.isLoading
      && u.element.Some? && u.element.value.body == u.sortedData
      && HeaderMarked(t.columns, u.element.value.markers, t.sorted)
      && ReadActive(t.columns, u.element.value.markers) == Some(t.sorted)
      && r.value.fetch == Some(GetData(t.url, t.sorted.id, t.sorted.order, u.visibleRows))
      && u.(visibleRows := t.visibleRows, sortedData := t.sortedData, element := t.element) == t
  {
    match ScrollBegin(t, near)
    case TypeError => TypeError
    case Ok(begin) =>
      if begin.fetch.None? then Ok(begin)
      else
        match ScrollEnd(begin.table, t.sorted, page)
        case TypeError => TypeError
        case Ok(u) => Ok(Step(u, begin.fetch))
  }

  /** A scroll signal arriving while a page is loading is dropped: two
      signals before the first answer send exactly one request. */
  lemma SecondSignalWhileLoadingIsDropped(t: Table, near1: bool, near2: bool)
    requires t.scrollTrigger && near1 && !t.isLoading
    ensures ScrollBegin(t, near1).Ok? && ScrollBegin(t, near1).value.fetch.Some?
    ensures var t1 := ScrollBegin(t, near1).value.table;
      ScrollBegin(t1, near2) == Ok(Step(t1, None))
  {
  }

  /** The page requested by a scroll step starts right after the rows
      already requested: `_start` reads back as the new `visibleRows`. */
  lemma ScrollRequestsNextWindow(t: Table, page: seq<Row>)
    requires !t.isLoading
    requires Scroll(t, true, page).Ok?
    ensures var s := Scroll(t, true, page).value;
      && s.fetch.Some?
      && Lookup(s.fetch.value.params, "_start").Some?
      && ParseDecimal(Lookup(s.fetch.value.params, "_start").value) == Some(t.visibleRows + PageSize)
      && ParseDecimal(Lookup(s.fetch.value.params, "_end").value) == Some(t.visibleRows + 2 * PageSize)
  {
    var request := GetData(t.url, t.sorted.id, t.sorted.order, t.visibleRows + PageSize);
    assert Scroll(t, true, page).value.fetch == Some(request);
    RequestedWindow(t.url, t.sorted.id, t.sorted.order, t.visibleRows + PageSize);
  }

  /** An empty page does not stop pagination: the next signal still moves
      the cursor a page further and sends another request, while the rows
      shown stay the same. */
  lemma EmptyPageKeepsPaging(t: Table)
    requires t.scrollTrigger && !t.isLoading && t.element.Some? && t.sorted.id in ColumnIds(t.columns)
    ensures Scroll(t, true, []).Ok?
    ensures var s := Scroll(t, true, []).value;
      s.fetch.Some? && s.table.visibleRows == t.visibleRows + PageSize
      && s.table.sortedData == t.sortedData
  {
    assert t.sortedData + [] == t.sortedData;
  }

  /** No fencing: when a header click re-sorts on the server while a scroll
      fetch is pending, the stale page is appended after the new first page
      and the header is marked again with the sort state read before the
      click. */
  lemma StalePageAppendedAfterSort(t: Table, cell: nat, firstPage: seq<Row>, stalePage: seq<Row>,
                                   collate: (string, string) -> int)
    requires Comparator(collate) && Valid(t) && t.scrollTrigger && !t.isLoading && !t.isSortLocally
    requires t.element.Some? && t.sorted.id in ColumnIds(t.columns)
    requires HandlerOn(t.registry, cell).Some?
    ensures ScrollBegin(t, true).Ok?
    ensures var begun := ScrollBegin(t, true).value.table;
      var clicked := PointerDown(begun, cell, firstPage, collate);
      && clicked.Ok?
      && ScrollEnd(clicked.value.table, t.sorted, stalePage).Ok?
      && var u := ScrollEnd(clicked.value.table, t.sorted, stalePage).value;
         u.sortedData == firstPage + stalePage
         && HeaderMarked(t.columns, u.element.value.markers, t.sorted)
         && ReadActive(t.columns, u.element.value.markers) == Some(t.sorted)
  {
    var begun := ScrollBegin(t, true).value.table;
    var id := HandlerOn(begun.registry, cell).value;
    assert Listener(cell, id) in t.registry.recorded;
    var k :| 0 <= k < |t.registry.recorded| && t.registry.recorded[k] == Listener(cell, id);
    assert id in ColumnIds(t.columns) by {
      assert t.columns[cell].id == id;
    }
  }

  /** The constructor followed by `render()`: the data is normalised, the
      initial sort state chosen, the element mounted showing the data as
      given, the document scroll listener and the header listeners
      attached, and `sort()` run with `page` as the server's answer. Mode
      defaults to server-side.

      The constructor calls the `async` `render` without awaiting it, so a
      throw inside `render` only rejects that promise and the constructor
      still returns the table, built as far as `render` got:
      - rows that are `undefined` throw while the body markup is built,
        before anything is mounted or attached;
      - an initial id no column has throws in `sort()`, after mounting: in
        local mode in `sortData` before anything is shown, in server mode
        in `updateData` after the first page was requested and stored and
        every header marker cleared.
      With `undefined` rows no scroll listener is attached, so scrolls do
      nothing. With an unknown initial id `render` stops before it records
      the scroll trigger element, and nothing records it later, so every
      scroll of that table throws, even after a header press has sorted it.
      Only the missing sortable column throws from the constructor itself.
      The `undefined` rows and `sortedData` of such a table are `[]` here;
      no step of that table reads them. */
  function Construct(columns: seq<Column>, options: Options, page: seq<Row>,
                     collate: (string, string) -> int): (r: Completion<Step>)
    requires Comparator(collate)
    requires NormalizeData(options.data).Some? ==> DataTyped(columns, NormalizeData(options.data).value)
    ensures r.TypeError? <==> forall k :: 0 <= k < |columns| ==> !columns[k].sortable
    ensures r.Ok? ==> Valid(r.value.table) && r.value.table.columns == columns
    ensures r.Ok? ==> r.value.table.url == options.url.GetOr("")
    ensures r.Ok? ==> Ok(r.value.table.sorted) == InitialSortState(columns, options.sorted.GetOr(SortOverride(None, None)))
    ensures r.Ok? ==> r.value.table.isSortLocally == options.isSortLocally.GetOr(false)
    ensures r.Ok? ==> r.value.table.visibleRows == 0 && !r.value.table.isLoading
    ensures r.Ok? ==>
      (r.value.table.scrollTrigger <==>
         NormalizeData(options.data).Some? && r.value.table.sorted.id in ColumnIds(columns))
    ensures r.Ok? && NormalizeData(options.data).None? ==>
      var u := r.value.table;
      && r.value.fetch.None? && u.element.None? && !u.scrollListening
      && (forall c: nat :: HandlerOn(u.registry, c).None?)
    ensures r.Ok? && NormalizeData(options.data).Some? ==>
      var u := r.value.table;
      && Some(u.data) == NormalizeData(options.data)
      && u.scrollListening && Mounted(columns, u.registry) && u.element.Some?
    ensures r.Ok? && NormalizeData(options.data).Some? && !r.value.table.isSortLocally ==>
      r.value.fetch == Some(GetData(options.url.GetOr(""), r.value.table.sorted.id, r.value.table.sorted.order, 0))
      && r.value.table.sortedData == page
    ensures r.Ok? && NormalizeData(options.data).Some? && r.value.table.sorted.id in ColumnIds(columns) ==>
      var u := r.value.table;
      && u.element.value.body == u.sortedData
      && (u.isSortLocally ==>
            r.value.fetch.None? && ShowsSorted(columns, u.data, u.sorted, u.element.value, collate))
      && (!u.isSortLocally ==> HeaderMarked(columns, u.element.value.markers, u.sorted))
    ensures r.Ok? && NormalizeData(options.data).Some? && r.value.table.sorted.id !in ColumnIds(columns) ==>
      var u := r.value.table;
      && u.element.value.body == u.data
      && (u.isSortLocally ==>
            r.value.fetch.None? && u.element.value.markers == map[] && u.sortedData == [])
      && (!u.isSortLocally ==> u.element.value.markers == ClearedMarkers(columns))
  {
    match InitialSortState(columns, options.sorted.GetOr(SortOverride(None, None)))
    case TypeError => TypeError
    case Ok(sorted) =>
      var bare := Table(columns, options.url.GetOr(""), [], sorted,
                        options.isSortLocally.GetOr(false), 0, false, [],
                        None, Registry([], {}), false, false);
      match NormalizeData(options.data)
      case None => Ok(Step(bare, None))
      case Some(data) =>
        var t := bare.(data := data, element := Some(View(map[], data)),
                       registry := MountedRegistry(columns), scrollListening := true);
        match Sort(t, page, collate)
        case Ok(step) => Ok(step.(table := step.table.(scrollTrigger := true)))
        case TypeError =>
          if t.isSortLocally then Ok(Step(t, None))
          else
            Ok(Step(t.(sortedData := page, element := Some(View(ClearedMarkers(columns), data))),
                    Some(GetData(t.url, sorted.id, sorted.order, 0))))
  }

  /** A table whose initial sort id is no column's never scrolls: header
      presses sort it normally, but its scroll handler throws on every
      signal, whatever the geometry, and sends no request. */
  lemma UnknownInitialIdNeverScrolls(columns: seq<Column>, options: Options, page: seq<Row>,
                                     cell: nat, near: bool, page2: seq<Row>, page3: seq<Row>,
                                     collate: (string, string) -> int)
    requires Comparator(collate)
    requires NormalizeData(options.data).Some? && DataTyped(columns, NormalizeData(options.data).value)
    requires InitialSortState(columns, options.sorted.GetOr(SortOverride(None, None))).Ok?
    requires InitialSortState(columns, options.sorted.GetOr(SortOverride(None, None))).value.id
             !in ColumnIds(columns)
    ensures Construct(columns, options, page, collate).Ok?
    ensures var t := Construct(columns, options, page, collate).value.table;
      && ScrollEvent(t, near, page3).TypeError?
      && PointerDown(t, cell, page2, collate).Ok?
      && ScrollEvent(PointerDown(t, cell, page2, collate).value.table, near, page3).TypeError?
  {
    var r := Construct(columns, options, page, collate);
    assert r.Ok?;
    var t := r.value.table;
    assert !t.scrollTrigger && Valid(t) && t.element.Some?;
    PointerDownKeepsValid(t, cell, page2, collate);
    var u := PointerDown(t, cell, page2, collate).value.table;
    assert !u.scrollTrigger;
  }

  /** A document scroll: runs the handler while it is attached. */
  function ScrollEvent(t: Table, near: bool, page: seq<Row>): (r: Completion<Step>)
    ensures !t.scrollListening ==> r == Ok(Step(t, None))
    ensures t.scrollListening ==> r == Scroll(t, near, page)
  {
    if t.scrollListening then Scroll(t, near, page) else Ok(Step(t, None))
  }

  /** `destroy()`: the element is removed and nulled, the header listeners
      and the document scroll listener unregistered. */
  function Destroy(t: Table): (r: Table)
    ensures r.element.None? && !r.scrollListening
    ensures forall c: nat :: WellFormed(t.columns, t.registry) ==> HandlerOn(r.registry, c).None?
    ensures r.(element := t.element, registry := t.registry, scrollListening := t.scrollListening) == t
  {
    forall c: nat | WellFormed(t.columns, t.registry) ensures HandlerOn(RemoveClickListeners(t.registry), c).None? {
      RemovedHandlersNeverRun(t.registry, c);
    }
    t.(element := None, registry := RemoveClickListeners(t.registry), scrollListening := false)
  }

  /** After `destroy`, neither header presses nor scrolling change the table
      or send requests, and destroying again changes nothing. */
  lemma DestroyIsFinal(t: Table, cell: nat, near: bool, page: seq<Row>,
                       collate: (string, string) -> int)
    requires Comparator(collate) && Valid(t)
    ensures PointerDown(Destroy(t), cell, page, collate) == Ok(Step(Destroy(t), None))
    ensures ScrollEvent(Destroy(t), near, page) == Ok(Step(Destroy(t), None))
    ensures Destroy(Destroy(t)) == Destroy(t)
  {
    RemovedHandlersNeverRun(t.registry, cell);
  }
}

=== FILE: uniq.dfy ===
/** `uniq(arr = [])`: the distinct values of `arr` in order of first
    occurrence, computed by a left fold that appends an item unless the
    accumulator already `includes` it. Equality is the element type's own. */
module Uniq {
  import opened Wrappers

  /** No value occurs twice. */
  ghost predicate NoDuplicates<T>(s: seq<T>)
  {
    forall i, j :: 0 <= i < j < |s| ==> s[i] != s[j]
  }

  /** Position of the first occurrence of `x` in `s`. */
  function FirstIndex<T(==)>(s: seq<T>, x: T): (r: nat)
    requires x in s
    ensures r < |s| && s[r] == x && x !in s[..r]
    decreases |s|
  {
    if s[0] == x then 0
    else
      var k := FirstIndex(s[1..], x);
      assert s[1..][..k] == s[1..k + 1];
      k + 1
  }

  /** The reducer: push `item` unless the accumulator includes it. */
  function Push<T(==)>(acc: seq<T>, item: T): seq<T>
  {
    if item in acc then acc else acc + [item]
  }

  /** `s.reduce(Push, acc)`. */
  function Fold<T(==)>(acc: seq<T>, s: seq<T>): seq<T>
    decreases |s|
  {
    if |s| == 0 then acc else Fold(Push(acc, s[0]), s[1..])
  }

  /** The last step of the fold is one `Push`. */
  lemma {:induction false} FoldSnoc<T>(acc: seq<T>, s: seq<T>, x: T)
    ensures Fold(acc, s + [x]) == Push(Fold(acc, s), x)
    decreases |s|
  {
    if |s| == 0 {
      assert s + [x] == [x];
    } else {
      assert (s + [x])[1..] == s[1..] + [x];
      FoldSnoc(Push(acc, s[0]), s[1..], x);
    }
  }

  function UniqOf<T(==)>(s: seq<T>): seq<T>
  {
    Fold([], s)
  }

  /** A value is kept iff it occurs in the input. */
  lemma {:induction false} UniqContains<T>(s: seq<T>, y: T)
    ensures y in UniqOf(s) <==> y in s
    decreases |s|
  {
    if |s| > 0 {
      var s', x := s[..|s| - 1], s[|s| - 1];
      assert s == s' + [x];
      UniqContains(s', y);
      FoldSnoc([], s', x);
    }
  }

  /** Reading one more input value either keeps the output or appends it. */
  lemma UniqSnoc<T>(s: seq<T>, x: T)
    ensures UniqOf(s + [x]) == if x in s then UniqOf(s) else UniqOf(s) + [x]
  {
    FoldSnoc([], s, x);
    UniqContains(s, x);
  }

  /** The output has no duplicates. */
  lemma {:induction false} UniqNoDuplicates<T>(s: seq<T>)
    ensures NoDuplicates(UniqOf(s))
    decreases |s|
  {
    if |s| > 0 {
      var s', x := s[..|s| - 1], s[|s| - 1];
      assert s == s' + [x];
      UniqNoDuplicates(s');
      UniqSnoc(s', x);
      UniqContains(s', x);
    }
  }

  /** Output values come in the order of their first occurrence. */
  lemma {:induction false} UniqFirstOccurrenceOrder<T>(s: seq<T>)
    ensures forall k :: 0 <= k < |UniqOf(s)| ==> UniqOf(s)[k] in s
    ensures forall i, j :: 0 <= i < j < |UniqOf(s)| ==>
      FirstIndex(s, UniqOf(s)[i]) < FirstIndex(s, UniqOf(s)[j])
    decreases |s|
  {
    var u := UniqOf(s);
    forall k | 0 <= k < |u| ensures u[k] in s {
      UniqContains(s, u[k]);
    }
    if |s| > 0 {
      var s', x := s[..|s| - 1], s[|s| - 1];
      assert s == s' + [x];
      UniqFirstOccurrenceOrder(s');
      UniqSnoc(s', x);
      var u' := UniqOf(s');
      forall y | y in s' ensures FirstIndex(s, y) == FirstIndex(s', y) {
        FirstIndexSnoc(s', x, y);
      }
      if x !in s' {
        assert FirstIndex(s, x) == |s'| by {
          assert s[|s'|] == x;
          assert s[..|s'|] == s';
        }
        forall i, j | 0 <= i < j < |u| ensures FirstIndex(s, u[i]) < FirstIndex(s, u[j]) {
          if j == |u'| {
            assert u[i] == u'[i] && u[i] in s';
          } else {
            assert u[i] == u'[i] && u[j] == u'[j];
          }
        }
      }
    }
  }

  /** The output is no longer than the input, and as long exactly when the
      input has no duplicates. */
  lemma {:induction false} UniqLength<T>(s: seq<T>)
    ensures |UniqOf(s)| <= |s|
    ensures |UniqOf(s)| == |s| <==> NoDuplicates(s)
    decreases |s|
  {
    if |s| > 0 {
      var s', x := s[..|s| - 1], s[|s| - 1];
      assert s == s' + [x];
      UniqLength(s');
      UniqSnoc(s', x);
      if x in s' {
        assert !NoDuplicates(s) by {
          var k :| 0 <= k < |s'| && s'[k] == x;
          assert s[k] == s[|s| - 1];
        }
      } else {
        assert NoDuplicates(s) <==> NoDuplicates(s') by {
          if NoDuplicates(s') {
            forall i, j | 0 <= i < j < |s| ensures s[i] != s[j] {
              if j == |s'| {
                assert s[i] in s';
              } else {
                assert s[i] == s'[i] && s[j] == s'[j];
              }
            }
          }
        }
      }
    }
  }

  /** Appending to `s` does not move the first occurrences in `s`. */
  lemma {:induction false} FirstIndexSnoc<T>(s: seq<T>, x: T, y: T)
    requires y in s
    ensures FirstIndex(s + [x], y) == FirstIndex(s, y)
    decreases |s|
  {
    if s[0] != y {
      assert (s + [x])[1..] == s[1..] + [x];
      FirstIndexSnoc(s[1..], x, y);
    }
  }

  /** `uniq(arr)`, with `None` for a call without an argument. The input is
      a value, so it is not mutated. */
  function Uniq<T(==)>(arr: Option<seq<T>>): (r: seq<T>)
    ensures arr.None? ==> r == []
    ensures NoDuplicates(r)
    ensures forall k :: 0 <= k < |r| ==> r[k] in arr.GetOr([])
    ensures forall k :: 0 <= k < |arr.GetOr([])| ==> arr.GetOr([])[k] in r
    ensures forall i, j :: 0 <= i < j < |r| ==>
      FirstIndex(arr.GetOr([]), r[i]) < FirstIndex(arr.GetOr([]), r[j])
    ensures |r| <= |arr.GetOr([])|
    ensures |r| == |arr.GetOr([])| <==> NoDuplicates(arr.GetOr([]))
  {
    var s := arr.GetOr([]);
    var r := UniqOf(s);
    UniqNoDuplicates(s);
    UniqFirstOccurrenceOrder(s);
    UniqLength(s);
    forall k | 0 <= k < |s| ensures s[k] in r {
      UniqContains(s, s[k]);
    }
    r
  }

  /** Deduplicating an input without duplicates gives it back. */
  lemma {:induction false} UniqOfDistinct<T>(s: seq<T>)
    requires NoDuplicates(s)
    ensures UniqOf(s) == s
    decreases |s|
  {
    if |s| > 0 {
      var s', x := s[..|s| - 1], s[|s| - 1];
      assert s == s' + [x];
      assert NoDuplicates(s');
      UniqOfDistinct(s');
      UniqSnoc(s', x);
      assert x !in s';
    }
  }

  /** `uniq(uniq(a))` equals `uniq(a)`. */
  lemma UniqIdempotent<T>(arr: Option<seq<T>>)
    ensures Uniq(Some(Uniq(arr))) == Uniq(arr)
  {
    UniqOfDistinct(Uniq(arr));
  }
}

=== FILE: wrappers.dfy ===
/** Optional values, standing in for JavaScript's `undefined` where the
    source tests for a missing argument, property or search result. */
module Wrappers {

  datatype Option<+T> = None | Some(value: T) {

    /** The value, or `default` when it is missing (a JavaScript default
        parameter or default property). */
    function GetOr(default: T): T
    {
      match this
      case Some(v) => v
      case None => default
    }
  }
}
